=== FILE: README.md ===
# USD2Rials updater — a Dafny model

`USD2RialsUpdater` is a daily job that records the US dollar to Iranian
rial rate. It scrapes the first row of the price-history table on tgju.org
and normalises the row's Gregorian date to unpadded `month/day/year`. The
day's price is the floor average of the lowest and highest price. If the
row's Persian date differs from the last row of the CSV history, the row is
appended. On success, and also when the row is not new, the README
headline is rewritten. A direction mark and a signed change line appear
only against a previous row with a non-zero price, and the change line
appears only when the price differs.

This project models that core as pure functions over immutable data:

- `Text`, `Numerals` and `Calendar` model the Python built-ins the core
  leans on: `str.strip`, `str.split`, `str.replace`, `int()`, the decimal
  rendering of integers, and `datetime(y, m, d)`.
- `DateNormalizer` models `normalize_gregorian_date`. This covers the three
  `strptime` layouts (with CPython's field patterns for `%Y`, `%m` and
  `%d`), their order, the split heuristic, and the error paths.
- `Prices` models the price parsing and the floor average.
- `Store` models the CSV history as an append-only sequence.
- `ChangeDetector` models `is_new_data`, `calculate_price_change` and the
  rule for the change line.
- `Updater` models the table row → observation step and `run()` as a
  transition of the history. The fetched row and the success of the append
  are inputs.
- `NormalizerExamples` and `UpdaterExamples` instantiate the general
  lemmas on concrete page texts.

`is_new_data` compares the fetched row's Persian date with the *last* row
of the history only, so a Persian date seen earlier can be appended again
when another date lies in between; `Updater.EarlierDateAppendedAgain` shows
it. In the model, where the CSV header and read errors are left out, no two
*adjacent* rows share a Persian date (`Updater.RunAllInvariants`). The code
does not guarantee even that: a read error, or an existing but empty CSV
file whose first appended row is then taken as the header, makes
`get_last_entry` return `None`, and the same row is appended again.

## Model

| member | source | states |
|---|---|---|
| `DateNormalizer.Normalize` | update_price.py:19-52 | The empty text comes back as is. A non-empty blank text is the crash (`None`). Every other result is trimmed and is either the stripped input or the canonical spelling of a valid date; `NoDateUnchanged` and `FoundDateCanonical` say which. |
| `DateNormalizer.Outcome` | update_price.py:21-52 | Once the found date, if any, is given: empty in, empty out, and a crash exactly on a non-empty blank text. Otherwise a found date yields its canonical spelling and no date yields the stripped input. |
| `DateNormalizer.NoDateUnchanged` | update_price.py:50-52 | A text that is not blank and holds no date comes back stripped and otherwise unchanged. |
| `DateNormalizer.FoundDateCanonical` | update_price.py:50-51 | A text that is not blank and holds a date comes back as that date's unpadded `month/day/year` spelling. |
| `DateNormalizer.FirstMatch` | update_price.py:29-34 | The `for fmt` loop returns `None` exactly when every layout fails. Otherwise it returns a valid date produced by some layout, and every earlier layout failed. |
| `DateNormalizer.ParseToken` | update_price.py:28-49 | Any date found is a valid calendar date. Whenever some `strptime` layout matches, the loop's answer is used and the split heuristic is never consulted. |
| `DateNormalizer.ParsedDate` | update_price.py:23-27 | A date found in the first token of the stripped, separator-unified text is a valid calendar date. |
| `DateNormalizer.Strptime` | update_price.py:31 | A layout that parses yields a date `datetime` accepts. Impossible days are rejected. |
| `DateNormalizer.Fallback` | update_price.py:35-49 | The split heuristic only yields dates `datetime(y, m, d)` accepts, and only from exactly three pieces whose first or last piece is four ASCII digits. |
| `DateNormalizer.ReadYearFirst` | update_price.py:29-34 | A valid date written year-first with a four-digit year, either separator and any zero padding normalises to its canonical spelling. |
| `DateNormalizer.ReadMonthFirst` | update_price.py:29-34 | A valid date written month-first normalises to itself. The year-first layout never matches a short first field. |
| `DateNormalizer.ReadDayFirstAmbiguous` | update_price.py:29-34 | A day-first text whose day is at most 12 is read month-first, so day and month swap. |
| `DateNormalizer.ReadDayFirst` | update_price.py:29-34 | A day-first text whose day exceeds 12 fails both earlier layouts and is read day-first correctly. |
| `DateNormalizer.OverPaddedMonthReadsDayFirst` | update_price.py:35-49 | A three-digit month (`005`) fits no layout. The split heuristic then reads the text day/month/year without any swap. |
| `DateNormalizer.OverPaddedMonthReadsYearFirst` | update_price.py:35-47 | With a four-digit first field and a three-digit month, the split heuristic reads the text year/month/day. |
| `DateNormalizer.ImpossibleDateUnchanged` | update_price.py:29-52 | A year-first text of an impossible day fails every layout and the heuristic, and comes back unchanged. |
| `DateNormalizer.CanonicalFixedPoint` | update_price.py:50-51 | The normaliser's own output normalises to itself, including years below 1000, which no longer read as dates. |
| `DateNormalizer.NormalizeIdempotent` | update_price.py:19-52 | Normalising an already normalised result changes nothing, for every input that does not crash. |
| `DateNormalizer.SeparatorsInterchangeable` | update_price.py:27 | Replacing `-` by `/` in the raw text changes neither the date found nor whether the call crashes. When a date is found, the output is unchanged too. |
| `DateNormalizer.TrailingTextIgnored` | update_price.py:23-25 | Text after the first blank (a time of day) never changes the date found. When no date is found, the whole stripped text comes back. |
| `DateNormalizer.EmptyAndBlank` | update_price.py:21-25 | The empty text is returned unchanged. A blank non-empty text raises at `split()[0]`. |
| `Calendar.MakeDate` | update_price.py:47 | `datetime(y, m, d)` succeeds exactly for valid proleptic Gregorian dates in years 1 to 9999 and returns that date. |
| `Text.Strip` | update_price.py:23 | The result is empty exactly for blank input, and its ends are not blank. |
| `Text.StripSlice` | update_price.py:23 | `strip()` removes exactly the leading and the trailing blanks: the result is the stretch of the input that starts after the leading blanks, is followed only by blanks, and does not end in one. |
| `Text.FirstToken` | update_price.py:25 | `split()[0]` of a non-blank stripped text: the longest blank-free prefix, ending at the end of the text or at a blank. |
| `Text.ReplaceChar` | update_price.py:27 | `replace('-', '/')`: same length, every `-` becomes `/`, every other character stays. |
| `Text.SplitThree` | update_price.py:37 | `re.split(r'[/-]', …)` on a text with exactly two separators gives back the three pieces between them. |
| `Numerals.PyIntSpec` | update_price.py:85-86 | `int()` converts a text exactly when, between the blanks it skips and after an optional sign, it is a digit run of at most 4300 digits. The result is the signed value of the digits with the underscores removed. |
| `Numerals.RunValueSpec` | update_price.py:85-86 | The digit scanner behind `int()` accepts exactly digit runs with single underscores between digits. The value it returns is the decimal value of the digits with the underscores removed. |
| `Numerals.PyIntDecimal` | update_price.py:85-86 | `int(str(n)) == n` for every natural number of at most 4300 digits. |
| `Numerals.PyIntDigits` | update_price.py:41-44 | `int()` of a non-empty all-digit field is its decimal value, so leading zeros are ignored; with more than 4300 digits it raises. |
| `Numerals.PyIntSkipsBlanks` | update_price.py:85-86 | Blanks `int()` skips around a numeral do not change its value. |
| `Numerals.UnitSeparatorRejected` | update_price.py:85-86 | A unit separator is blank to `strip()` but not to `int()`, so a numeral followed by one raises. |
| `Numerals.GroupedWithoutCommas` | update_price.py:85-86 | Removing the thousands separators from a grouped price gives its plain decimal spelling. |
| `Prices.AveragePrice` | update_price.py:85-87 | The price exists exactly when both cells read as integers. Twice the price is the sum or one less than it. When the lowest price does not exceed the highest, the price lies between them. |
| `Prices.FloorMean` | update_price.py:87 | `//` by 2: defined exactly when both operands are, and equal to half the sum, rounded down. |
| `Prices.GroupedPriceReads` | update_price.py:85-86 | A price cell written with thousands separators reads back as that price, when it has at most 4300 digits. |
| `Prices.AverageOfPagePrices` | update_price.py:85-87 | Two grouped price cells average to the floor of their mean, which lies between them. |
| `Prices.AverageReads` | update_price.py:87 | Once both cells read, the price is the floor of their mean. |
| `Store.LastEntry` | update_price.py:100-111 | There is no last row exactly when the history is empty. Otherwise the last row is one of the history's rows. |
| `Store.LastAfterAppends` | update_price.py:106-111 | After appending rows, the last entry read back is the row appended last. |
| `ChangeDetector.IsNew` | update_price.py:116-120 | On an empty history every row is new. Otherwise a row is new exactly when its Persian date differs from the last row's. |
| `ChangeDetector.NewnessByPersianDate` | update_price.py:116-120 | Only the Persian date matters: rows that share it are new or not together, and the last row itself is never new. |
| `ChangeDetector.PreviousPrice` | update_price.py:159-160 | There is a previous price exactly when there is a last row, and it is that row's price. |
| `ChangeDetector.CalculatePriceChange` | update_price.py:141-152 | No arrow exactly when the previous price is missing or 0, and then no change. Otherwise the change is the difference, with rising, falling or steady matching its sign. |
| `ChangeDetector.ReadmeHeadline` | update_price.py:158-172 | The headline carries the fetched row's Persian date and price. A change line is never zero. |
| `ChangeDetector.ChangeLineRule` | update_price.py:160-172 | The change line appears exactly when a previous row with a non-zero price differs in price, and it shows the difference. The arrow is absent exactly when there is no usable previous price. Against a usable previous price the arrow rises, falls or stays steady exactly as today's price is above, below or equal to it. |
| `Updater.ParseRow` | update_price.py:72-94 | A row yields an observation exactly when it has at least 8 cells, its date does not crash the normaliser and both prices read. The observation holds the Persian date verbatim, the normalised Gregorian date, `tgju` and the average price. |
| `Updater.Run` | update_price.py:208-243 | The run fails exactly when the fetch failed or a new row could not be appended. The history changes exactly when a new row was appended, and only by that row. The README is rewritten exactly on success, from the fetched row and the previous last row. |
| `Updater.RunAppendsAtMostOne` | update_price.py:224-238 | A run keeps the history as a prefix and adds at most one row. |
| `Updater.SuccessfulRunRecordsDate` | update_price.py:224-243 | After a successful run, the history ends with the fetched Persian date. |
| `Updater.RerunIsIdempotent` | update_price.py:116-120 | Re-running with the same fetched row after a success appends nothing and succeeds, whether or not the append would work. |
| `Updater.RunKeepsAdjacentDistinct` | update_price.py:224-226 | A run never puts two rows with the same Persian date next to each other. |
| `Updater.EarlierDateAppendedAgain` | update_price.py:116-120 | Only the last row is compared: a Persian date seen earlier is appended again when another date lies between. |
| `Updater.RunAllInvariants` | update_price.py:208-243 | Over any sequence of runs: the history only grows, by at most one row per run. Adjacent rows keep distinct dates. Every added row was fetched by some run. |
| `Updater.FirstRun` | update_price.py:208-243 | On an empty history, a fetched row becomes the only row. The README then shows its date and price with no arrow and no change line, since `calculate_price_change` (lines 159-160) finds no previous price. |
| `UpdaterExamples.FirstRunExample` | update_price.py:72-94 | A page row with Persian date `1403/07/01`, Gregorian date `2024-09-22` and grouped prices yields the observation (`9/22/2024`, floor average). The first run records that observation. |
| `NormalizerExamples.AmbiguousReadsMonthFirst` | update_price.py:29-34 | `5/3/2024` and `5-3-2024` read as May 3rd. |
| `NormalizerExamples.DayAboveTwelveReadsDayFirst` | update_price.py:29-34 | `13/5/2024` reads as May 13th. |
| `NormalizerExamples.PaddedYearFirst` | update_price.py:29-34 | `2024-03-05` becomes `3/5/2024`. |
| `NormalizerExamples.TimeOfDayDropped` | update_price.py:25 | `2024-09-22 14:30` becomes `9/22/2024`. |
| `NormalizerExamples.NotADateUnchanged` | update_price.py:35-52 | `not/a/date` comes back unchanged. |
| `NormalizerExamples.OverPaddedExample` | update_price.py:35-49 | `3/005/2024` becomes `5/3/2024` through the split heuristic. |
| `NormalizerExamples.OverPaddedYearFirstExample` | update_price.py:35-47 | `2024/005/03` becomes `5/3/2024` through the year-first branch of the split heuristic. |
| `NormalizerExamples.PaddedFieldReadsMonthFirst` | update_price.py:29-34 | `3/05/2024` becomes `3/5/2024`. |
| `NormalizerExamples.FebruaryThirtiethUnchanged` | update_price.py:29-52 | `2024-02-30` comes back unchanged. |
| `NormalizerExamples.ShortYearUnpadded` | update_price.py:50-51 | `0900-01-02` becomes `1/2/900`, since the year is printed unpadded. |

## Left out

- The HTTP request, BeautifulSoup and the table lookup (lines 56-72, 78-80 and 82) are not modelled. The cell texts of the first body row are an input to `Updater.ParseRow`, and every failure before them is `None` in `Updater.Run`'s `fetched` argument.
- `get_text(strip=True)` is not modelled: cell texts are taken as given.
- CSV file I/O (`append_to_csv`, `get_last_entry`) is not modelled: the history is a sequence of observations, and whether the append succeeds is a parameter. The header row, quoting, encoding and read errors are left out.
- Prices are stored as integers. A `price_avg` column that does not read back as an integer is therefore not modelled. In the code it makes `update_readme` fail with an `int()` error, and an empty one counts as no previous price.
- `update_readme` writing the file is not modelled. Its fixed Persian text and the `{:,}` and `{:+,}` formatting are left out; the model keeps only the variable part, as `Headline`. A failed README write does not change the result of `run()` in the code, so the model always produces the headline on success.
- Logging, `print`, the exit code and the constructor's URL and headers are not modelled.
- `Numerals.PyInt`: models `int()` on ASCII digits only. Python also converts other Unicode decimal digits, and `strptime`'s `\d` and `str.isdigit` likewise accept non-ASCII digits. Those are not modelled because the page writes ASCII. The 4300-digit limit is the default one; changing it through `sys.set_int_max_str_digits` or the environment is not modelled.
- `DateNormalizer.Fallback`: the pattern `[/-]` is modelled as splitting on `/` alone, because every `-` has already become `/` at that point.
- `DateNormalizer.Strptime`: `%d`'s fifth alternative (a blank followed by a digit) is left out, because a token never contains a blank.
- `Updater.Run`: the README failure path of `update_readme` is not distinguished, because `run()` ignores it.

=== FILE: calendar.dfy ===
/** Proleptic Gregorian calendar dates as Python's `datetime(y, m, d)`
    accepts them: years 1 to 9999, twelve months, and the day bounded by
    the month's length under the Gregorian leap rule. */
module Calendar {

  import opened Options

  const MinYear := 1
  const MaxYear := 9999

  predicate IsLeapYear(y: int)
  {
    y % 4 == 0 && (y % 100 != 0 || y % 400 == 0)
  }

  function DaysInMonth(y: int, m: int): (n: int)
    requires 1 <= m <= 12
    ensures 28 <= n <= 31
  {
    if m == 2 then (if IsLeapYear(y) then 29 else 28)
    else if m == 4 || m == 6 || m == 9 || m == 11 then 30
    else 31
  }

  datatype Date = Date(year: int, month: int, day: int)
  {
    /** `datetime(year, month, day)` does not raise. */
    predicate Valid()
    {
      && MinYear <= year <= MaxYear
      && 1 <= month <= 12
      && 1 <= day <= DaysInMonth(year, month)
    }
  }

  /** `datetime(y, m, d)`, with `ValueError` as `None`. */
  function MakeDate(y: int, m: int, d: int): (r: Option<Date>)
    ensures r.Some? ==> r.value.Valid() && r.value == Date(y, m, d)
    ensures r.None? ==> !Date(y, m, d).Valid()
  {
    if Date(y, m, d).Valid() then Some(Date(y, m, d)) else None
  }
}

=== FILE: change_detector.dfy ===
/** `is_new_data` and `calculate_price_change`, and the rule that decides
    whether the README shows a change line. */
module ChangeDetector {

  import opened Options
  import opened Store

  /** `is_new_data`: with no last row everything is new; otherwise only a
      different Persian date string is. The strings are compared as they
      are, with no date normalisation. */
  function IsNew(candidate: Observation, last: Option<Observation>): (r: bool)
    ensures last.None? ==> r
    ensures last.Some? ==> (r <==> candidate.datePr != last.value.datePr)
  {
    match last
    case None => true
    case Some(prev) => candidate.datePr != prev.datePr
  }

  /** Newness looks at the Persian date alone: rows that share it are new
      or not together, whatever their prices or Gregorian dates, and the
      last row itself is never new. */
  lemma NewnessByPersianDate(a: Observation, b: Observation, last: Option<Observation>)
    requires a.datePr == b.datePr
    ensures IsNew(a, last) == IsNew(b, last)
    ensures !IsNew(a, Some(a))
  {
  }

  /** The direction marks: none, `↗️`, `↘️` and `➡️`. */
  datatype Arrow = NoArrow | Rising | Falling | Steady

  datatype PriceChange = PriceChange(change: int, arrow: Arrow)

  /** `calculate_price_change(current, previous)`; a missing previous price
      and a previous price of 0 are both falsy and give `(0, "")`. */
  function CalculatePriceChange(current: int, previous: Option<int>): (r: PriceChange)
    ensures r.arrow == NoArrow <==> previous.None? || previous.value == 0
    ensures r.arrow == NoArrow ==> r.change == 0
    ensures r.arrow != NoArrow ==> r.change == current - previous.value
    ensures r.arrow == Rising <==> r.change > 0
    ensures r.arrow == Falling <==> r.change < 0
    ensures r.arrow == Steady <==> r.arrow != NoArrow && current == previous.value
  {
    if previous.None? || previous.value == 0 then PriceChange(0, NoArrow)
    else
      var change := current - previous.value;
      if change > 0 then PriceChange(change, Rising)
      else if change < 0 then PriceChange(change, Falling)
      else PriceChange(0, Steady)
  }

  /** The previous price `update_readme` passes on: the last row's price,
      if there is a last row. The stored price is an integer here, so the
      truthiness test on its text always passes and `int()` gives it back. */
  function PreviousPrice(last: Option<Observation>): (r: Option<int>)
    ensures r.None? <==> last.None?
    ensures r.Some? ==> r.value == last.value.priceAvg
  {
    match last
    case None => None
    case Some(prev) => Some(prev.priceAvg)
  }

  /** The variable part of the README: Persian date, price, direction
      mark, and the signed change line when there is one. */
  datatype Headline = Headline(datePr: string, price: int, arrow: Arrow, changeLine: Option<int>)

  function ReadmeHeadline(latest: Observation, last: Option<Observation>): (h: Headline)
    ensures h.datePr == latest.datePr && h.price == latest.priceAvg
    ensures h.changeLine.Some? ==> h.changeLine.value != 0
  {
    var pc := CalculatePriceChange(latest.priceAvg, PreviousPrice(last));
    Headline(latest.datePr, latest.priceAvg, pc.arrow, if pc.change != 0 then Some(pc.change) else None)
  }

  /** The change line appears exactly when there is a previous row with a
      non-zero price different from today's, and it shows the difference;
      against such a row the arrow follows the sign of the change. */
  lemma ChangeLineRule(latest: Observation, last: Option<Observation>)
    ensures var h := ReadmeHeadline(latest, last);
      && (h.changeLine.Some? <==> last.Some? && last.value.priceAvg != 0 && latest.priceAvg != last.value.priceAvg)
      && (h.changeLine.Some? ==> h.changeLine.value == latest.priceAvg - last.value.priceAvg)
      && (h.arrow == NoArrow <==> last.None? || last.value.priceAvg == 0)
      && (h.arrow == Rising <==> last.Some? && last.value.priceAvg != 0 && latest.priceAvg > last.value.priceAvg)
      && (h.arrow == Falling <==> last.Some? && last.value.priceAvg != 0 && latest.priceAvg < last.value.priceAvg)
      && (h.arrow == Steady <==> last.Some? && last.value.priceAvg != 0 && latest.priceAvg == last.value.priceAvg)
  {
  }
}

=== FILE: date_normalizer.dfy ===
/** `normalize_gregorian_date`: turns the Gregorian date text scraped from
    the price page into unpadded `month/day/year`, trying the `strptime`
    layouts year-first, month-first, day-first, then a split heuristic,
    and handing back the stripped input when nothing reads as a date. */
module DateNormalizer {

  import opened Options
  import opened Text
  import opened Numerals
  import opened Calendar

  /** `%Y` in `strptime`: exactly four digits. */
  predicate YearField(s: string)
  {
    |s| == 4 && AllDigits(s)
  }

  /** `%m` in `strptime`: `1[0-2]|0[1-9]|[1-9]` over the whole field. */
  predicate MonthField(s: string)
  {
    && AllDigits(s)
    && (|| (|s| == 1 && s[0] != '0')
        || (|s| == 2 && ((s[0] == '0' && s[1] != '0') || (s[0] == '1' && s[1] <= '2'))))
  }

  /** `%d` in `strptime`: `3[01]|[12]\d|0[1-9]|[1-9]` over the whole field
      (its fifth alternative starts with a blank, which a token never has). */
  predicate DayField(s: string)
  {
    && AllDigits(s)
    && (|| (|s| == 1 && s[0] != '0')
        || (|s| == 2 && (|| (s[0] == '0' && s[1] != '0')
                         || s[0] == '1' || s[0] == '2'
                         || (s[0] == '3' && s[1] <= '1'))))
  }

  /** The three `strptime` formats the normaliser tries. */
  datatype Layout = YearMonthDay | MonthDayYear | DayMonthYear

  /** The order in which the formats are tried. */
  const Layouts: seq<Layout> := [YearMonthDay, MonthDayYear, DayMonthYear]

  /** `datetime.strptime(tok, layout)` on a token whose separators are all
      `/`; an unmatched field, leftover text or an impossible date raise
      `ValueError`, modelled as `None`. */
  function Strptime(tok: string, layout: Layout): (r: Option<Date>)
    ensures r.Some? ==> r.value.Valid()
  {
    var parts := Split(tok, '/');
    if |parts| != 3 then None
    else
      var (ys, ms, ds) :=
        match layout
        case YearMonthDay => (parts[0], parts[1], parts[2])
        case MonthDayYear => (parts[2], parts[0], parts[1])
        case DayMonthYear => (parts[2], parts[1], parts[0]);
      if YearField(ys) && MonthField(ms) && DayField(ds)
      then MakeDate(DigitsValue(ys), DigitsValue(ms), DigitsValue(ds))
      else None
  }

  /** The `for fmt in (...)` loop: the first layout that parses wins. */
  function FirstMatch(tok: string, layouts: seq<Layout>): (r: Option<Date>)
    ensures r.Some? ==> r.value.Valid()
    ensures r.None? <==> forall i :: 0 <= i < |layouts| ==> Strptime(tok, layouts[i]).None?
    ensures r.Some? ==> exists i :: && 0 <= i < |layouts|
                                    && Strptime(tok, layouts[i]) == r
                                    && forall j :: 0 <= j < i ==> Strptime(tok, layouts[j]).None?
    decreases |layouts|
  {
    if layouts == [] then None
    else
      match Strptime(tok, layouts[0])
      case Some(d) => Some(d)
      case None =>
        var r := FirstMatch(tok, layouts[1..]);
        assert forall i :: 1 <= i < |layouts| ==> layouts[i] == layouts[1..][i - 1];
        r
  }

  /** `int(y), int(m), int(d)` followed by `datetime(y, m, d)`. */
  function ReadDate(ys: string, ms: string, ds: string): (r: Option<Date>)
    ensures r.Some? ==> r.value.Valid()
  {
    match (PyInt(ys), PyInt(ms), PyInt(ds))
    case (Some(y), Some(m), Some(d)) => MakeDate(y, m, d)
    case _ => None
  }

  /** The split heuristic used when no layout matches: three pieces, with a
      four-digit first piece read as year/month/day, otherwise a four-digit
      last piece read as day/month/year. The token holds no `-` any more,
      so splitting on `[/-]` is splitting on `/`. */
  function Fallback(tok: string): (r: Option<Date>)
    ensures r.Some? ==> r.value.Valid()
    ensures r.Some? ==> var parts := Split(tok, '/');
      && |parts| == 3
      && ((|parts[0]| == 4 && AllDigits(parts[0])) || (|parts[2]| == 4 && AllDigits(parts[2])))
  {
    var parts := Split(tok, '/');
    if |parts| != 3 then None
    else if |parts[0]| == 4 && AllDigits(parts[0]) then ReadDate(parts[0], parts[1], parts[2])
    else if |parts[2]| == 4 && AllDigits(parts[2]) then ReadDate(parts[2], parts[1], parts[0])
    else None
  }

  /** The date a `/`-separated token denotes, if any. */
  function ParseToken(tok: string): (r: Option<Date>)
    ensures r.Some? ==> r.value.Valid()
    ensures (exists i :: 0 <= i < |Layouts| && Strptime(tok, Layouts[i]).Some?) ==> r == FirstMatch(tok, Layouts)
  {
    match FirstMatch(tok, Layouts)
    case Some(d) => Some(d)
    case None => Fallback(tok)
  }

  /** The date found in the first whitespace-delimited token of the raw
      text, after `-` has become `/`; `None` when the text is blank or no
      reading succeeds. */
  function ParsedDate(raw: string): (r: Option<Date>)
    ensures r.Some? ==> r.value.Valid()
  {
    var s := Strip(raw);
    if s == "" then None else ParseToken(ReplaceChar(FirstToken(s), '-', '/'))
  }

  /** `f"{month}/{day}/{year}"`: no zero padding anywhere. */
  function Canonical(d: Date): string
    requires d.Valid()
  {
    Decimal(d.month) + "/" + Decimal(d.day) + "/" + Decimal(d.year)
  }

  ghost predicate IsCanonical(t: string)
  {
    exists d: Date :: d.Valid() && t == Canonical(d)
  }

  /** `normalize_gregorian_date(raw)`. `None` stands for the `IndexError`
      that `split()[0]` raises on a non-empty blank text. */
  function Normalize(raw: string): (r: Option<string>)
    ensures raw == "" ==> r == Some("")
    ensures r.None? <==> raw != "" && AllSpace(raw)
    ensures r.Some? ==> Trimmed(r.value) && (raw == "" || r.value == Strip(raw) || IsCanonical(r.value))
  {
    var found := ParsedDate(raw);
    FoundShape(found);
    Outcome(raw, found)
  }

  /** What the normaliser returns once it knows which date, if any, the
      text holds: the empty text as is, a crash on a blank one, the
      canonical spelling of a found date, and otherwise the stripped text. */
  function Outcome(raw: string, found: Option<Date>): (r: Option<string>)
    requires found.Some? ==> found.value.Valid()
    ensures raw == "" ==> r == Some("")
    ensures r.None? <==> raw != "" && AllSpace(raw)
    ensures !AllSpace(raw) && found.Some? ==> r == Some(Canonical(found.value))
    ensures !AllSpace(raw) && found.None? ==> r == Some(Strip(raw))
  {
    if raw == "" then Some(raw)
    else if Strip(raw) == "" then None
    else
      match found
      case Some(d) => Some(Canonical(d))
      case None => Some(Strip(raw))
  }

  /** The soft failure: a text that is not blank and holds no date comes
      back stripped and otherwise unchanged. */
  lemma NoDateUnchanged(raw: string)
    requires !AllSpace(raw) && ParsedDate(raw).None?
    ensures Normalize(raw) == Some(Strip(raw))
  {
  }

  /** The success path: a text that is not blank and holds a date comes
      back as that date's canonical spelling. */
  lemma FoundDateCanonical(raw: string)
    requires !AllSpace(raw) && ParsedDate(raw).Some?
    ensures Normalize(raw) == Some(Canonical(ParsedDate(raw).value))
  {
  }

  lemma FoundShape(found: Option<Date>)
    requires found.Some? ==> found.value.Valid()
    ensures found.Some? ==> IsCanonical(Canonical(found.value)) && Trimmed(Canonical(found.value))
  {
    if found.Some? {
      CanonicalShape(found.value);
    }
  }

  lemma CanonicalShape(d: Date)
    requires d.Valid()
    ensures IsCanonical(Canonical(d)) && Trimmed(Canonical(d))
    ensures var t := Canonical(d); t != "" && IsDigit(t[0]) && IsDigit(t[|t| - 1])
  {
    var t := Canonical(d);
    assert t[0] == Decimal(d.month)[0];
    assert t[|t| - 1] == Decimal(d.year)[|Decimal(d.year)| - 1];
  }

  // ---------------------------------------------------------------------
  // Raw texts as the page may write a date
  // ---------------------------------------------------------------------

  /** The two separators a date may be written with. */
  predicate IsSeparator(sep: char)
  {
    sep == '/' || sep == '-'
  }

  datatype Padding = Unpadded | ZeroPadded

  /** A month or day field, optionally zero-padded to two digits. */
  function Field(n: nat, p: Padding): string
  {
    if p == ZeroPadded && n < 10 then "0" + Decimal(n) else Decimal(n)
  }

  /** A valid date written in one of the three layouts, with a four-digit
      year, optional zero padding and either separator. */
  function Render(d: Date, layout: Layout, pm: Padding, pd: Padding, sep: char): string
    requires d.Valid()
  {
    var y, m, dd := FourDigits(d.year), Field(d.month, pm), Field(d.day, pd);
    match layout
    case YearMonthDay => y + [sep] + m + [sep] + dd
    case MonthDayYear => m + [sep] + dd + [sep] + y
    case DayMonthYear => dd + [sep] + m + [sep] + y
  }

  lemma DigitsInert(s: string)
    requires AllDigits(s)
    ensures NoSpace(s) && Lacks(s, '/') && Lacks(s, '-')
  {
  }

  lemma SmallDecimal(n: nat)
    requires n < 100
    ensures Decimal(n) == if n < 10 then [DigitChar(n)] else [DigitChar(n / 10), DigitChar(n % 10)]
  {
  }

  /** A month or day number in 1..31, padded or not, is a `%d` field that
      reads back as itself, and a `%m` field exactly when it is at most 12. */
  lemma FieldFacts(n: nat, p: Padding)
    requires 1 <= n <= 31
    ensures var s := Field(n, p);
      && DayField(s) && DigitsValue(s) == n && |s| <= 2
      && (MonthField(s) <==> n <= 12)
  {
    SmallDecimal(n);
    if n >= 10 {
      TwoDigitField(n, Field(n, p));
    } else if p == ZeroPadded {
      PaddedDigitField(n, Field(n, p));
    } else {
      assert Field(n, p) == [DigitChar(n)];
    }
  }

  lemma PaddedDigitField(n: nat, s: string)
    requires 1 <= n < 10 && s == ['0', DigitChar(n)]
    ensures DayField(s) && MonthField(s) && DigitsValue(s) == n
  {
    assert s[..1] == ['0'];
    assert DigitsValue(s[..1]) == 0;
    assert DigitsValue(s) == 10 * DigitsValue(s[..1]) + n;
  }

  lemma TwoDigitField(n: nat, s: string)
    requires 10 <= n <= 31 && s == [DigitChar(n / 10), DigitChar(n % 10)]
    ensures DayField(s) && DigitsValue(s) == n && (MonthField(s) <==> n <= 12)
  {
    assert s[..1] == [DigitChar(n / 10)];
    assert DigitsValue(s[..1]) == n / 10;
    assert DigitsValue(s) == 10 * (n / 10) + n % 10;
  }

  lemma FourDigitsFacts(y: nat)
    requires y < 10000
    ensures YearField(FourDigits(y)) && DigitsValue(FourDigits(y)) == y
  {
    var s := FourDigits(y);
    var a, b, c, d := y / 1000, y / 100 % 10, y / 10 % 10, y % 10;
    assert DigitValue(s[0]) == a && DigitValue(s[1]) == b;
    assert DigitValue(s[2]) == c && DigitValue(s[3]) == d;
    FourDigitValue(s);
    PlaceValues(y);
  }

  /** A four-digit string's value, digit by digit. */
  lemma FourDigitValue(s: string)
    requires |s| == 4 && AllDigits(s)
    ensures DigitsValue(s) == 1000 * DigitValue(s[0]) + 100 * DigitValue(s[1]) + 10 * DigitValue(s[2]) + DigitValue(s[3])
  {
    var p3, p2, p1 := s[..3], s[..2], s[..1];
    assert p3[..2] == p2 && p2[..1] == p1 && p1[..0] == "";
    assert p3[2] == s[2] && p2[1] == s[1] && p1[0] == s[0];
    assert DigitsValue(p1) == DigitValue(s[0]);
    assert DigitsValue(p2) == 10 * DigitsValue(p1) + DigitValue(s[1]);
    assert DigitsValue(p3) == 10 * DigitsValue(p2) + DigitValue(s[2]);
  }

  lemma PlaceValues(y: nat)
    requires y < 10000
    ensures y == 1000 * (y / 1000) + 100 * (y / 100 % 10) + 10 * (y / 10 % 10) + y % 10
  {
    var t := y / 10;
    var h := t / 10;
    assert y == 10 * t + y % 10;
    assert t == 10 * h + t % 10;
    assert h == y / 100;
    assert h == 10 * (h / 10) + h % 10;
    assert h / 10 == y / 1000;
  }

  lemma JoinedInert(a: string, b: string, c: string, sep: char)
    requires NoSpace(a) && NoSpace(b) && NoSpace(c) && !IsSpace(sep)
    ensures NoSpace(a + [sep] + b + [sep] + c)
  {
    var raw := a + [sep] + b + [sep] + c;
    forall i | 0 <= i < |raw|
      ensures !IsSpace(raw[i])
    {
      if i < |a| {
        assert raw[i] == a[i];
      } else if i == |a| {
      } else if i < |a| + 1 + |b| {
        assert raw[i] == b[i - |a| - 1];
      } else if i == |a| + 1 + |b| {
      } else {
        assert raw[i] == c[i - |a| - |b| - 2];
      }
    }
  }

  /** A token built from three digit fields and separators normalises
      through those three fields. */
  lemma JoinedToken(a: string, b: string, c: string, sep: char)
    requires AllDigits(a) && AllDigits(b) && AllDigits(c) && a != "" && c != ""
    requires IsSeparator(sep)
    ensures var raw := a + [sep] + b + [sep] + c;
      && Strip(raw) == raw
      && ParsedDate(raw) == ParseToken(a + "/" + b + "/" + c)
      && Split(a + "/" + b + "/" + c, '/') == [a, b, c]
  {
    var raw := a + [sep] + b + [sep] + c;
    DigitsInert(a);
    DigitsInert(b);
    DigitsInert(c);
    JoinedInert(a, b, c, sep);
    SingleToken(raw);
    JoinedReplace(a, b, c, sep);
    SplitThree(a, b, c, '/');
  }

  /** A non-empty text without blanks is one token. */
  lemma SingleToken(raw: string)
    requires raw != "" && NoSpace(raw)
    ensures Strip(raw) == raw
    ensures ParsedDate(raw) == ParseToken(ReplaceChar(raw, '-', '/'))
  {
    StripKeeps(raw);
    FirstTokenWhole(raw);
  }

  lemma JoinedReplace(a: string, b: string, c: string, sep: char)
    requires Lacks(a, '-') && Lacks(b, '-') && Lacks(c, '-')
    requires IsSeparator(sep)
    ensures ReplaceChar(a + [sep] + b + [sep] + c, '-', '/') == a + "/" + b + "/" + c
  {
    ReplaceConcat(a + [sep] + b + [sep], c, '-', '/');
    ReplaceConcat(a + [sep] + b, [sep], '-', '/');
    ReplaceConcat(a + [sep], b, '-', '/');
    ReplaceConcat(a, [sep], '-', '/');
    ReplaceAbsent(a, '-', '/');
    ReplaceAbsent(b, '-', '/');
    ReplaceAbsent(c, '-', '/');
    assert ReplaceChar([sep], '-', '/') == "/";
  }

  /** A year-first text of a valid date reads as that date. */
  lemma ReadYearFirst(d: Date, pm: Padding, pd: Padding, sep: char)
    requires d.Valid() && IsSeparator(sep)
    ensures Normalize(Render(d, YearMonthDay, pm, pd, sep)) == Some(Canonical(d))
  {
    var y, m, dd := FourDigits(d.year), Field(d.month, pm), Field(d.day, pd);
    FourDigitsFacts(d.year);
    FieldFacts(d.month, pm);
    FieldFacts(d.day, pd);
    JoinedToken(y, m, dd, sep);
    var tok := y + "/" + m + "/" + dd;
    StrptimeFields(tok, y, m, dd, YearMonthDay);
    ParseTokenOrder(tok);
  }

  /** A month-first text of a valid date reads as that date: the year-first
      layout cannot match a one- or two-digit first field. */
  lemma ReadMonthFirst(d: Date, pm: Padding, pd: Padding, sep: char)
    requires d.Valid() && IsSeparator(sep)
    ensures Normalize(Render(d, MonthDayYear, pm, pd, sep)) == Some(Canonical(d))
  {
    var y, m, dd := FourDigits(d.year), Field(d.month, pm), Field(d.day, pd);
    FourDigitsFacts(d.year);
    FieldFacts(d.month, pm);
    FieldFacts(d.day, pd);
    JoinedToken(m, dd, y, sep);
    MonthFirstToken(d, pm, pd);
    ReadsAs(Render(d, MonthDayYear, pm, pd, sep), d);
  }

  lemma MonthFirstToken(d: Date, pm: Padding, pd: Padding)
    requires d.Valid()
    ensures ParseToken(Field(d.month, pm) + "/" + Field(d.day, pd) + "/" + FourDigits(d.year)) == Some(d)
  {
    var y, m, dd := FourDigits(d.year), Field(d.month, pm), Field(d.day, pd);
    FourDigitsFacts(d.year);
    FieldFacts(d.month, pm);
    FieldFacts(d.day, pd);
    var tok := m + "/" + dd + "/" + y;
    SplitThree(m, dd, y, '/');
    StrptimeFields(tok, m, dd, y, YearMonthDay);
    StrptimeFields(tok, m, dd, y, MonthDayYear);
    ParseTokenOrder(tok);
  }

  /** A non-blank text whose first token reads as `d` normalises to `d`'s
      canonical form. */
  lemma ReadsAs(raw: string, d: Date)
    requires d.Valid() && Strip(raw) != "" && ParsedDate(raw) == Some(d)
    ensures Normalize(raw) == Some(Canonical(d))
  {
    assert raw != "";
  }

  /** The priority order spelled out: year-first, then month-first, then
      day-first, then the split heuristic. */
  lemma ParseTokenOrder(tok: string)
    ensures ParseToken(tok) ==
      if Strptime(tok, YearMonthDay).Some? then Strptime(tok, YearMonthDay)
      else if Strptime(tok, MonthDayYear).Some? then Strptime(tok, MonthDayYear)
      else if Strptime(tok, DayMonthYear).Some? then Strptime(tok, DayMonthYear)
      else Fallback(tok)
  {
    assert Layouts[1..][1..] == [DayMonthYear];
    assert FirstMatch(tok, [DayMonthYear][1..]) == None;
  }

  /** `Strptime` on a token that splits into the three given fields. */
  lemma StrptimeFields(tok: string, a: string, b: string, c: string, layout: Layout)
    requires Split(tok, '/') == [a, b, c]
    ensures Strptime(tok, layout) ==
      match layout
      case YearMonthDay =>
        if YearField(a) && MonthField(b) && DayField(c) then MakeDate(DigitsValue(a), DigitsValue(b), DigitsValue(c)) else None
      case MonthDayYear =>
        if YearField(c) && MonthField(a) && DayField(b) then MakeDate(DigitsValue(c), DigitsValue(a), DigitsValue(b)) else None
      case DayMonthYear =>
        if YearField(c) && MonthField(b) && DayField(a) then MakeDate(DigitsValue(c), DigitsValue(b), DigitsValue(a)) else None
  {
  }

  /** A day-first text whose day is at most 12 also reads month-first, and
      month-first wins: day and month swap. */
  lemma ReadDayFirstAmbiguous(d: Date, pm: Padding, pd: Padding, sep: char)
    requires d.Valid() && IsSeparator(sep) && d.day <= 12
    ensures Date(d.year, d.day, d.month).Valid()
    ensures Normalize(Render(d, DayMonthYear, pm, pd, sep)) == Some(Canonical(Date(d.year, d.day, d.month)))
  {
    var y, m, dd := FourDigits(d.year), Field(d.month, pm), Field(d.day, pd);
    FourDigitsFacts(d.year);
    FieldFacts(d.month, pm);
    FieldFacts(d.day, pd);
    var raw := Render(d, DayMonthYear, pm, pd, sep);
    assert raw == dd + [sep] + m + [sep] + y;
    JoinedToken(dd, m, y, sep);
    SwappedToken(d, pm, pd);
    var e := Date(d.year, d.day, d.month);
    assert ParsedDate(raw) == Some(e);
    assert raw != "" && Strip(raw) != "";
  }

  lemma SwappedToken(d: Date, pm: Padding, pd: Padding)
    requires d.Valid() && d.day <= 12
    ensures var e := Date(d.year, d.day, d.month);
      && e.Valid()
      && ParseToken(Field(d.day, pd) + "/" + Field(d.month, pm) + "/" + FourDigits(d.year)) == Some(e)
  {
    var y, m, dd := FourDigits(d.year), Field(d.month, pm), Field(d.day, pd);
    FourDigitsFacts(d.year);
    FieldFacts(d.month, pm);
    FieldFacts(d.day, pd);
    SplitThree(dd, m, y, '/');
    var tok := dd + "/" + m + "/" + y;
    var e := Date(d.year, d.day, d.month);
    assert e.Valid() by {
      assert DaysInMonth(d.year, d.day) >= 28;
    }
    StrptimeFields(tok, dd, m, y, YearMonthDay);
    StrptimeFields(tok, dd, m, y, MonthDayYear);
    ParseTokenOrder(tok);
  }

  /** A day-first text whose day exceeds 12 fails month-first and reads
      day-first. */
  lemma ReadDayFirst(d: Date, pm: Padding, pd: Padding, sep: char)
    requires d.Valid() && IsSeparator(sep) && d.day > 12
    ensures Normalize(Render(d, DayMonthYear, pm, pd, sep)) == Some(Canonical(d))
  {
    var y, m, dd := FourDigits(d.year), Field(d.month, pm), Field(d.day, pd);
    FourDigitsFacts(d.year);
    FieldFacts(d.month, pm);
    FieldFacts(d.day, pd);
    JoinedToken(dd, m, y, sep);
    var tok := dd + "/" + m + "/" + y;
    StrptimeFields(tok, dd, m, y, YearMonthDay);
    StrptimeFields(tok, dd, m, y, MonthDayYear);
    StrptimeFields(tok, dd, m, y, DayMonthYear);
    ParseTokenOrder(tok);
  }

  /** A month written with three digits (`005`) fits no layout, and the
      split heuristic reads the text day-first, whatever the day: unlike
      `ReadDayFirstAmbiguous`, day and month never swap here. */
  lemma OverPaddedMonthReadsDayFirst(d: Date, pd: Padding, sep: char)
    requires d.Valid() && d.month < 10 && IsSeparator(sep)
    ensures Normalize(Field(d.day, pd) + [sep] + ("00" + Decimal(d.month)) + [sep] + FourDigits(d.year))
         == Some(Canonical(d))
  {
    var y, m, dd := FourDigits(d.year), "00" + Decimal(d.month), Field(d.day, pd);
    FourDigitsFacts(d.year);
    FieldFacts(d.day, pd);
    OverPaddedMonth(d.month);
    JoinedToken(dd, m, y, sep);
    OverPaddedToken(dd, m, y, d);
  }

  lemma OverPaddedMonth(n: nat)
    requires 1 <= n < 10
    ensures var m := "00" + Decimal(n);
      && |m| == 3 && AllDigits(m) && PyInt(m) == Some(n)
  {
    OverPaddedValue(n);
    PyIntDigits("00" + Decimal(n));
  }

  lemma OverPaddedValue(n: nat)
    requires 1 <= n < 10
    ensures var m := "00" + Decimal(n);
      && |m| == 3 && AllDigits(m) && DigitsValue(m) == n
  {
    assert Decimal(n) == [DigitChar(n)];
    DigitsValueConcat("00", Decimal(n));
    assert DigitsValue("00") == 0 by {
      assert "00"[..1] == "0";
    }
    DecimalValue(n);
  }

  lemma OverPaddedToken(dd: string, m: string, y: string, d: Date)
    requires d.Valid()
    requires DayField(dd) && |dd| <= 2 && DigitsValue(dd) == d.day
    requires |m| == 3 && AllDigits(m) && PyInt(m) == Some(d.month)
    requires YearField(y) && DigitsValue(y) == d.year
    ensures ParseToken(dd + "/" + m + "/" + y) == Some(d)
  {
    DigitsInert(dd);
    DigitsInert(m);
    DigitsInert(y);
    SplitThree(dd, m, y, '/');
    var tok := dd + "/" + m + "/" + y;
    OverPaddedNoLayout(tok, dd, m, y);
    ParseTokenOrder(tok);
    PyIntDigits(dd);
    PyIntDigits(y);
    assert ReadDate(y, m, dd) == Some(d);
  }

  /** A three-digit middle field fails every layout: in each of them the
      middle field is the month or the day. */
  lemma OverPaddedNoLayout(tok: string, a: string, m: string, c: string)
    requires Split(tok, '/') == [a, m, c] && |m| == 3
    ensures forall l :: Strptime(tok, l) == None
  {
    forall l: Layout
      ensures Strptime(tok, l) == None
    {
      StrptimeFields(tok, a, m, c, l);
    }
  }

  /** With a four-digit first field the split heuristic reads year, month,
      day instead: the year-first branch of the heuristic. */
  lemma OverPaddedMonthReadsYearFirst(d: Date, pd: Padding, sep: char)
    requires d.Valid() && d.month < 10 && IsSeparator(sep)
    ensures Normalize(FourDigits(d.year) + [sep] + ("00" + Decimal(d.month)) + [sep] + Field(d.day, pd))
         == Some(Canonical(d))
  {
    var y, m, dd := FourDigits(d.year), "00" + Decimal(d.month), Field(d.day, pd);
    FourDigitsFacts(d.year);
    FieldFacts(d.day, pd);
    OverPaddedMonth(d.month);
    JoinedToken(y, m, dd, sep);
    YearFirstOverPaddedToken(y, m, dd, d);
  }

  lemma YearFirstOverPaddedToken(y: string, m: string, dd: string, d: Date)
    requires d.Valid()
    requires DayField(dd) && |dd| <= 2 && DigitsValue(dd) == d.day
    requires |m| == 3 && AllDigits(m) && PyInt(m) == Some(d.month)
    requires YearField(y) && DigitsValue(y) == d.year
    ensures ParseToken(y + "/" + m + "/" + dd) == Some(d)
  {
    DigitsInert(dd);
    DigitsInert(m);
    DigitsInert(y);
    SplitThree(y, m, dd, '/');
    var tok := y + "/" + m + "/" + dd;
    OverPaddedNoLayout(tok, y, m, dd);
    ParseTokenOrder(tok);
    PyIntDigits(dd);
    PyIntDigits(y);
    assert ReadDate(y, m, dd) == Some(d);
  }

  /** A year-first text of an impossible day (February 30th, April 31st,
      February 29th of a common year) matches no layout, is rejected by the
      split heuristic too, and comes back unchanged. */
  lemma ImpossibleDateUnchanged(y: nat, m: nat, day: nat, pm: Padding, pd: Padding, sep: char)
    requires 1 <= y <= 9999 && 1 <= m <= 12 && 1 <= day <= 31 && IsSeparator(sep)
    requires !Date(y, m, day).Valid()
    ensures var raw := FourDigits(y) + [sep] + Field(m, pm) + [sep] + Field(day, pd);
      Normalize(raw) == Some(raw)
  {
    var ys, ms, ds := FourDigits(y), Field(m, pm), Field(day, pd);
    FourDigitsFacts(y);
    FieldFacts(m, pm);
    FieldFacts(day, pd);
    JoinedToken(ys, ms, ds, sep);
    ImpossibleToken(ys, ms, ds, y, m, day);
  }

  lemma ImpossibleToken(ys: string, ms: string, ds: string, y: nat, m: nat, day: nat)
    requires YearField(ys) && DigitsValue(ys) == y
    requires MonthField(ms) && DigitsValue(ms) == m && |ms| <= 2
    requires DayField(ds) && DigitsValue(ds) == day && |ds| <= 2
    requires !Date(y, m, day).Valid()
    ensures ParseToken(ys + "/" + ms + "/" + ds) == None
  {
    DigitsInert(ys);
    DigitsInert(ms);
    DigitsInert(ds);
    SplitThree(ys, ms, ds, '/');
    var tok := ys + "/" + ms + "/" + ds;
    StrptimeFields(tok, ys, ms, ds, YearMonthDay);
    StrptimeFields(tok, ys, ms, ds, MonthDayYear);
    StrptimeFields(tok, ys, ms, ds, DayMonthYear);
    ParseTokenOrder(tok);
    PyIntDigits(ys);
    PyIntDigits(ms);
    PyIntDigits(ds);
  }

  /** The normaliser's own output normalises to itself. Years of four
      digits re-read month-first; shorter years match no layout and fall
      through to the unchanged-text path. */
  lemma CanonicalFixedPoint(d: Date)
    requires d.Valid()
    ensures Normalize(Canonical(d)) == Some(Canonical(d))
    ensures d.year < 1000 ==> ParsedDate(Canonical(d)).None?
  {
    var m, dd, y := Decimal(d.month), Decimal(d.day), Decimal(d.year);
    FieldFacts(d.month, Unpadded);
    FieldFacts(d.day, Unpadded);
    JoinedToken(m, dd, y, '/');
    var tok := m + "/" + dd + "/" + y;
    assert Canonical(d) == tok;
    StrptimeFields(tok, m, dd, y, YearMonthDay);
    StrptimeFields(tok, m, dd, y, MonthDayYear);
    StrptimeFields(tok, m, dd, y, DayMonthYear);
    ParseTokenOrder(tok);
    if d.year >= 1000 {
      FourDigitYear(d.year);
    } else {
      ShortYear(d.year);
    }
  }

  lemma FourDigitYear(y: nat)
    requires 1000 <= y < 10000
    ensures YearField(Decimal(y)) && DigitsValue(Decimal(y)) == y
  {
    DecimalLength(y, 3);
    DecimalLength(y, 4);
    assert Pow10(3) == 1000 && Pow10(4) == 10000;
    DecimalValue(y);
  }

  lemma ShortYear(y: nat)
    requires y < 1000
    ensures |Decimal(y)| < 4
  {
    DecimalLength(y, 3);
    assert Pow10(3) == 1000;
  }

  /** Normalising twice is normalising once. */
  lemma NormalizeIdempotent(raw: string)
    requires Normalize(raw).Some?
    ensures Normalize(Normalize(raw).value) == Normalize(raw)
  {
    if raw != "" {
      match ParsedDate(raw)
      case Some(d) => CanonicalFixedPoint(d);
      case None =>
        StripIdempotent(raw);
    }
  }

  /** `-` and `/` are interchangeable: replacing every `-` by `/` in the
      raw text changes neither whether nor what date is found, nor the
      output when one is found. */
  lemma SeparatorsInterchangeable(raw: string)
    ensures var u := ReplaceChar(raw, '-', '/');
      && ParsedDate(u) == ParsedDate(raw)
      && (Normalize(u).None? <==> Normalize(raw).None?)
      && (ParsedDate(raw).Some? ==> Normalize(u) == Normalize(raw))
  {
    var u := ReplaceChar(raw, '-', '/');
    ParsedDateReplace(raw);
    BlankReplace(raw);
    if ParsedDate(raw).Some? {
      SameDateSameOutput(u, raw);
    }
  }

  lemma BlankReplace(raw: string)
    ensures var u := ReplaceChar(raw, '-', '/');
      (u != "" && AllSpace(u)) <==> (raw != "" && AllSpace(raw))
  {
    var u := ReplaceChar(raw, '-', '/');
    assert |u| == |raw|;
    if AllSpace(raw) {
      assert forall i :: 0 <= i < |u| ==> u[i] == raw[i];
    }
  }

  /** Two texts in which the same date is found normalise alike. */
  lemma SameDateSameOutput(u: string, raw: string)
    requires ParsedDate(raw).Some? && ParsedDate(u) == ParsedDate(raw)
    ensures Normalize(u) == Normalize(raw)
  {
    assert Strip(raw) != "" && Strip(u) != "";
    assert raw != "" && u != "";
  }

  /** Replacing `-` by `/` beforehand does not change the date found. */
  lemma ParsedDateReplace(raw: string)
    ensures ParsedDate(ReplaceChar(raw, '-', '/')) == ParsedDate(raw)
  {
    StripReplace(raw, '-', '/');
    var s := Strip(raw);
    FirstTokenReplace(s, '-', '/');
    ReplaceTwice(FirstToken(s), '-', '/');
    assert |ReplaceChar(s, '-', '/')| == |s|;
  }

  /** Only the first whitespace-delimited token is read: text after a
      blank (a time of day, say) never changes which date is found, and
      on the unchanged-text path the whole stripped text comes back. */
  lemma TrailingTextIgnored(tok: string, c: char, rest: string)
    requires tok != "" && NoSpace(tok) && IsSpace(c)
    ensures var raw := tok + [c] + rest;
      && ParsedDate(raw) == ParsedDate(tok)
      && (ParsedDate(tok).Some? ==> Normalize(raw) == Normalize(tok))
      && (ParsedDate(tok).None? ==> Normalize(raw) == Some(Strip(raw)) && Strip(raw) != "")
  {
    var raw := tok + [c] + rest;
    assert TrimStart(raw) == raw;
    TrimEndKeepsPrefix(raw, |tok| - 1);
    var t := Strip(raw);
    assert t == raw[..|t|];
    if |t| == |tok| {
      assert t == tok;
    } else {
      assert t == tok + [c] + rest[..|t| - |tok| - 1];
      FirstTokenStops(tok, c, rest[..|t| - |tok| - 1]);
    }
    StripKeeps(tok);
    FirstTokenWhole(tok);
  }

  /** An empty text comes back unchanged; a blank non-empty one makes
      `split()[0]` raise. */
  lemma EmptyAndBlank(raw: string)
    ensures raw == "" ==> Normalize(raw) == Some("")
    ensures raw != "" && AllSpace(raw) ==> Normalize(raw).None?
  {
  }
}

=== FILE: normalizer_examples.dfy ===
/** Worked inputs for `normalize_gregorian_date`, each derived from the
    general lemmas of `DateNormalizer`. The separator is a parameter, so
    each example covers both the `/` and the `-` spelling. */
module NormalizerExamples {

  import opened Options
  import opened Text
  import opened Numerals
  import opened Calendar
  import opened DateNormalizer

  function Joined(a: string, b: string, c: string, sep: char): string
  {
    a + [sep] + b + [sep] + c
  }

  /** `5/3/2024` is ambiguous and reads month-first: May 3rd, not March 5th. */
  lemma AmbiguousReadsMonthFirst(sep: char)
    requires IsSeparator(sep)
    ensures Normalize(Joined("5", "3", "2024", sep)) == Some("5/3/2024")
  {
    AmbiguousReadsMonthFirstText(sep);
    ReadDayFirstAmbiguous(Date(2024, 3, 5), Unpadded, Unpadded, sep);
  }

  lemma AmbiguousReadsMonthFirstText(sep: char)
    ensures Canonical(Date(2024, 5, 3)) == "5/3/2024"
    ensures Render(Date(2024, 3, 5), DayMonthYear, Unpadded, Unpadded, sep) == Joined("5", "3", "2024", sep)
  {
    YearText();
  }

  /** A first field above 12 cannot be a month, so the day-first layout
      applies. */
  lemma DayAboveTwelveReadsDayFirst(sep: char)
    requires IsSeparator(sep)
    ensures Normalize(Joined("13", "5", "2024", sep)) == Some("5/13/2024")
  {
    DayAboveTwelveReadsDayFirstText(sep);
    ReadDayFirst(Date(2024, 5, 13), Unpadded, Unpadded, sep);
  }

  lemma DayAboveTwelveReadsDayFirstText(sep: char)
    ensures Canonical(Date(2024, 5, 13)) == "5/13/2024"
    ensures Render(Date(2024, 5, 13), DayMonthYear, Unpadded, Unpadded, sep) == Joined("13", "5", "2024", sep)
  {
    YearText();
  }

  /** The year-first text the page shows loses its padding. */
  lemma PaddedYearFirst(sep: char)
    requires IsSeparator(sep)
    ensures Normalize(Joined("2024", "03", "05", sep)) == Some("3/5/2024")
  {
    PaddedYearFirstText(sep);
    ReadYearFirst(Date(2024, 3, 5), ZeroPadded, ZeroPadded, sep);
  }

  lemma PaddedYearFirstText(sep: char)
    ensures Canonical(Date(2024, 3, 5)) == "3/5/2024"
    ensures Render(Date(2024, 3, 5), YearMonthDay, ZeroPadded, ZeroPadded, sep) == Joined("2024", "03", "05", sep)
  {
    YearText();
  }

  /** A time of day after the date is dropped. */
  lemma TimeOfDayDropped(sep: char, c: char)
    requires IsSeparator(sep) && IsSpace(c)
    ensures Normalize(Joined("2024", "09", "22", sep) + [c] + "14:30") == Some("9/22/2024")
  {
    var tok := Joined("2024", "09", "22", sep);
    PageDate(sep);
    TrailingTextIgnored(tok, c, "14:30");
  }

  lemma PageDate(sep: char)
    requires IsSeparator(sep)
    ensures Normalize(Joined("2024", "09", "22", sep)) == Some("9/22/2024")
    ensures ParsedDate(Joined("2024", "09", "22", sep)).Some?
    ensures NoSpace(Joined("2024", "09", "22", sep))
  {
    var d := Date(2024, 9, 22);
    PageDateText(sep);
    PageDateInert(sep);
    ReadYearFirst(d, ZeroPadded, ZeroPadded, sep);
  }

  lemma PageDateText(sep: char)
    requires IsSeparator(sep)
    ensures var d := Date(2024, 9, 22);
      && d.Valid()
      && Canonical(d) == "9/22/2024"
      && Render(d, YearMonthDay, ZeroPadded, ZeroPadded, sep) == Joined("2024", "09", "22", sep)
  {
    YearText();
  }

  lemma PageDateInert(sep: char)
    requires IsSeparator(sep)
    ensures NoSpace(Joined("2024", "09", "22", sep))
  {
    DigitsInert("2024");
    DigitsInert("09");
    DigitsInert("22");
    JoinedInert("2024", "09", "22", sep);
  }

  /** The year every example uses, as `str` and as `%Y` write it. */
  lemma YearText()
    ensures Decimal(2024) == "2024" && FourDigits(2024) == "2024"
  {
    assert Decimal(202) == "202";
  }

  /** Text that is not a date comes back unchanged. */
  lemma NotADateUnchanged(sep: char)
    requires IsSeparator(sep)
    ensures Normalize(Joined("not", "a", "date", sep)) == Some(Joined("not", "a", "date", sep))
  {
    var raw := Joined("not", "a", "date", sep);
    assert NoSpace(raw);
    SingleToken(raw);
    JoinedReplace("not", "a", "date", sep);
    NotADateToken();
  }

  lemma NotADateToken()
    ensures ParseToken("not" + "/" + "a" + "/" + "date") == None
  {
    var tok := "not" + "/" + "a" + "/" + "date";
    SplitThree("not", "a", "date", '/');
    assert !AllDigits("date") by {
      assert !IsDigit("date"[0]);
    }
    StrptimeFields(tok, "not", "a", "date", YearMonthDay);
    StrptimeFields(tok, "not", "a", "date", MonthDayYear);
    StrptimeFields(tok, "not", "a", "date", DayMonthYear);
    ParseTokenOrder(tok);
  }

  /** `3/005/2024` fits no layout; the split heuristic reads it day-first
      as May 3rd (compare `PaddedFieldReadsMonthFirst`). */
  lemma OverPaddedExample(sep: char)
    requires IsSeparator(sep)
    ensures Normalize(Joined("3", "005", "2024", sep)) == Some("5/3/2024")
  {
    OverPaddedExampleText(sep);
    OverPaddedMonthReadsDayFirst(Date(2024, 5, 3), Unpadded, sep);
  }

  lemma OverPaddedExampleText(sep: char)
    ensures Canonical(Date(2024, 5, 3)) == "5/3/2024"
    ensures Field(3, Unpadded) + [sep] + ("00" + Decimal(5)) + [sep] + FourDigits(2024) == Joined("3", "005", "2024", sep)
  {
    YearText();
  }

  /** `2024/005/03` fits no layout either; with the year first, the split
      heuristic reads it as May 3rd. */
  lemma OverPaddedYearFirstExample(sep: char)
    requires IsSeparator(sep)
    ensures Normalize(Joined("2024", "005", "03", sep)) == Some("5/3/2024")
  {
    OverPaddedYearFirstExampleText(sep);
    OverPaddedMonthReadsYearFirst(Date(2024, 5, 3), ZeroPadded, sep);
  }

  lemma OverPaddedYearFirstExampleText(sep: char)
    ensures Canonical(Date(2024, 5, 3)) == "5/3/2024"
    ensures FourDigits(2024) + [sep] + ("00" + Decimal(5)) + [sep] + Field(3, ZeroPadded) == Joined("2024", "005", "03", sep)
  {
    YearText();
  }

  /** `3/05/2024` reads month-first as March 5th. */
  lemma PaddedFieldReadsMonthFirst(sep: char)
    requires IsSeparator(sep)
    ensures Normalize(Joined("3", "05", "2024", sep)) == Some("3/5/2024")
  {
    PaddedFieldReadsMonthFirstText(sep);
    ReadMonthFirst(Date(2024, 3, 5), Unpadded, ZeroPadded, sep);
  }

  lemma PaddedFieldReadsMonthFirstText(sep: char)
    ensures Canonical(Date(2024, 3, 5)) == "3/5/2024"
    ensures Render(Date(2024, 3, 5), MonthDayYear, Unpadded, ZeroPadded, sep) == Joined("3", "05", "2024", sep)
  {
    YearText();
  }

  /** February 30th comes back unchanged. */
  lemma FebruaryThirtiethUnchanged(sep: char)
    requires IsSeparator(sep)
    ensures Normalize(Joined("2024", "02", "30", sep)) == Some(Joined("2024", "02", "30", sep))
  {
    assert FourDigits(2024) + [sep] + Field(2, ZeroPadded) + [sep] + Field(30, Unpadded) == Joined("2024", "02", "30", sep);
    assert !Date(2024, 2, 30).Valid();
    ImpossibleDateUnchanged(2024, 2, 30, ZeroPadded, Unpadded, sep);
  }

  /** A year below 1000 is written unpadded; the result no longer reads as
      a date, and `CanonicalFixedPoint` shows it still normalises to itself. */
  lemma ShortYearUnpadded(sep: char)
    requires IsSeparator(sep)
    ensures Normalize(Joined("0900", "01", "02", sep)) == Some("1/2/900")
  {
    ShortYearUnpaddedText(sep);
    ReadYearFirst(Date(900, 1, 2), ZeroPadded, ZeroPadded, sep);
  }

  lemma ShortYearUnpaddedText(sep: char)
    ensures Canonical(Date(900, 1, 2)) == "1/2/900"
    ensures Render(Date(900, 1, 2), YearMonthDay, ZeroPadded, ZeroPadded, sep) == Joined("0900", "01", "02", sep)
  {
  }
}

=== FILE: numerals.dfy ===
/** Decimal numerals: reading ASCII digit strings the way Python's `int()`
    does, and writing natural numbers the way an f-string `{n}` and the
    thousands-grouped `{n:,}` do. */
module Numerals {

  import opened Options
  import opened Text

  predicate AllDigits(s: string)
  {
    forall i :: 0 <= i < |s| ==> IsDigit(s[i])
  }

  function DigitValue(c: char): nat
    requires IsDigit(c)
  {
    (c as int) - ('0' as int)
  }

  function DigitChar(n: nat): (c: char)
    requires n < 10
    ensures IsDigit(c) && DigitValue(c) == n
  {
    (('0' as int) + n) as char
  }

  /** The value of a digit string, most significant digit first; leading
      zeros are allowed and the empty string reads as 0. */
  function DigitsValue(s: string): nat
    requires AllDigits(s)
    decreases |s|
  {
    if s == "" then 0 else 10 * DigitsValue(s[..|s| - 1]) + DigitValue(s[|s| - 1])
  }

  function Pow10(k: nat): (p: nat)
    ensures p >= 1
  {
    if k == 0 then 1 else 10 * Pow10(k - 1)
  }

  /** The shortest decimal numeral of `n`, as `str(n)` writes it. */
  function Decimal(n: nat): (r: string)
    ensures |r| >= 1 && AllDigits(r)
    ensures n > 0 ==> r[0] != '0'
  {
    if n < 10 then [DigitChar(n)] else Decimal(n / 10) + [DigitChar(n % 10)]
  }

  /** Exactly four digits, zero-padded. */
  function FourDigits(n: nat): (r: string)
    requires n < 10000
    ensures |r| == 4 && AllDigits(r)
  {
    [DigitChar(n / 1000), DigitChar(n / 100 % 10), DigitChar(n / 10 % 10), DigitChar(n % 10)]
  }

  /** Exactly three digits, zero-padded. */
  function ThreeDigits(n: nat): (r: string)
    requires n < 1000
    ensures |r| == 3 && AllDigits(r)
  {
    [DigitChar(n / 100), DigitChar(n / 10 % 10), DigitChar(n % 10)]
  }

  /** `f"{n:,}"`: groups of three digits separated by commas. */
  function Grouped(n: nat): (r: string)
    decreases n
  {
    if n < 1000 then Decimal(n) else Grouped(n / 1000) + "," + ThreeDigits(n % 1000)
  }

  /** The body of a Python integer literal as `int()` accepts it: digits,
      with single underscores allowed between two digits. */
  predicate IsDigitRun(t: string)
  {
    && |t| > 0
    && IsDigit(t[0])
    && IsDigit(t[|t| - 1])
    && (forall i :: 0 <= i < |t| ==> IsDigit(t[i]) || t[i] == '_')
    && (forall i :: 0 < i < |t| && t[i - 1] == '_' ==> IsDigit(t[i]))
  }

  /** `int()` reading a digit run from the right: the last character must
      be a digit, and an underscore may stand only between two digits. */
  function RunValue(t: string): Option<nat>
    decreases |t|
  {
    if t == "" || !IsDigit(t[|t| - 1]) then None
    else if |t| == 1 then Some(DigitValue(t[0]))
    else
      var head := if t[|t| - 2] == '_' then t[..|t| - 2] else t[..|t| - 1];
      match RunValue(head)
      case None => None
      case Some(v) => Some(10 * v + DigitValue(t[|t| - 1]))
  }

  /** The most digits `int()` converts from text: CPython's default
      `sys.int_info.default_max_str_digits`; longer numerals raise
      `ValueError`. Underscores are not counted. */
  const MaxStrDigits := 4300

  /** The blanks `int()` skips around a numeral. CPython first turns every
      non-ASCII `isspace()` character into a blank, then skips blank, tab,
      line feed, vertical tab, form feed and carriage return; the ASCII
      separators FS..US count for `isspace()` but are not skipped. */
  predicate IntBlank(c: char)
  {
    IsSpace(c) && !('\U{1C}' <= c <= '\U{1F}')
  }

  function IntTrimStart(s: string): (r: string)
    ensures |r| <= |s| && r == s[|s| - |r|..]
    ensures forall i :: 0 <= i < |s| - |r| ==> IntBlank(s[i])
    ensures r == "" || !IntBlank(r[0])
    decreases |s|
  {
    if |s| > 0 && IntBlank(s[0]) then IntTrimStart(s[1..]) else s
  }

  function IntTrimEnd(s: string): (r: string)
    ensures |r| <= |s| && r == s[..|r|]
    ensures forall i :: |r| <= i < |s| ==> IntBlank(s[i])
    ensures r == "" || !IntBlank(r[|r| - 1])
    decreases |s|
  {
    if |s| > 0 && IntBlank(s[|s| - 1]) then IntTrimEnd(s[..|s| - 1]) else s
  }

  /** The numeral `int()` reads: the text between the blanks it skips. */
  function IntTrim(s: string): string
  {
    IntTrimEnd(IntTrimStart(s))
  }

  /** A numeral without its sign, if it has one. */
  function Unsigned(t: string): string
  {
    if |t| > 0 && (t[0] == '+' || t[0] == '-') then t[1..] else t
  }

  /** Python's `int(s)` for base 10: the skipped blanks around it, one
      optional sign, then a digit run of at most `MaxStrDigits` digits;
      anything else raises `ValueError`, modelled as `None`. */
  function PyInt(s: string): Option<int>
  {
    ReadNumeral(IntTrim(s))
  }

  /** `int()` on the text between the skipped blanks: the scanner reads
      the digits right to left, then the digit limit and the sign apply. */
  function ReadNumeral(t: string): Option<int>
  {
    var u := Unsigned(t);
    match RunValue(u)
    case None => None
    case Some(n) =>
      if |Without(u, '_')| > MaxStrDigits then None
      else
        var v: int := n;
        Some(if t[0] == '-' then -v else v)
  }

  /** What `int()` accepts and what it returns, against the reference
      definition of a digit run: a text converts exactly when, between the
      skipped blanks and after an optional sign, it is a digit run of at
      most `MaxStrDigits` digits, and then its value is the signed value of
      its digits. */
  lemma PyIntSpec(s: string)
    ensures var u := Unsigned(IntTrim(s));
      PyInt(s).Some? <==> IsDigitRun(u) && |Without(u, '_')| <= MaxStrDigits
    ensures PyInt(s).Some? ==>
      var t := IntTrim(s);
      var w := Without(Unsigned(t), '_');
      && AllDigits(w)
      && var n: int := DigitsValue(w);
         PyInt(s).value == if t[0] == '-' then -n else n
  {
    RunValueSpec(Unsigned(IntTrim(s)));
  }

  /** The scanner accepts exactly the digit runs, and reads one as the
      value of its digits once the underscores are dropped. */
  lemma {:induction false} RunValueSpec(t: string)
    ensures RunValue(t).Some? <==> IsDigitRun(t)
    ensures IsDigitRun(t) ==> AllDigits(Without(t, '_')) && RunValue(t) == Some(DigitsValue(Without(t, '_')))
    decreases |t|
  {
    if t == "" || !IsDigit(t[|t| - 1]) {
    } else if |t| == 1 {
      assert Without(t, '_') == Without([], '_') + [t[0]];
    } else {
      var n := |t|;
      var c := t[n - 1];
      var head := if t[n - 2] == '_' then t[..n - 2] else t[..n - 1];
      RunValueSpec(head);
      RunStep(t, head);
      if IsDigitRun(t) {
        WithoutStep(t, head);
      }
    }
  }

  /** Dropping the last digit (and an underscore before it) keeps a digit
      run a digit run, and nothing else becomes one. */
  lemma RunStep(t: string, head: string)
    requires |t| >= 2 && IsDigit(t[|t| - 1])
    requires head == if t[|t| - 2] == '_' then t[..|t| - 2] else t[..|t| - 1]
    ensures IsDigitRun(t) <==> IsDigitRun(head)
  {
    var n := |t|;
    if IsDigitRun(t) && t[n - 2] == '_' {
      assert n >= 3 by {
        assert IsDigit(t[0]);
      }
      assert t[n - 3] != '_' by {
        assert t[n - 2] == '_' ==> IsDigit(t[n - 2]) || t[n - 3] != '_';
      }
      assert IsDigit(t[n - 3]);
    }
    if IsDigitRun(head) && t[n - 2] == '_' {
      forall i | 0 < i < n && t[i - 1] == '_'
        ensures IsDigit(t[i])
      {
        if i < n - 2 {
          assert head[i - 1] == t[i - 1] && head[i] == t[i];
        } else if i == n - 2 {
          assert head[i - 1] == t[i - 1];
        }
      }
      forall i | 0 <= i < n
        ensures IsDigit(t[i]) || t[i] == '_'
      {
        if i < n - 2 {
          assert head[i] == t[i];
        }
      }
    }
    if IsDigitRun(head) && t[n - 2] != '_' {
      assert IsDigit(head[n - 2]);
      forall i | 0 < i < n && t[i - 1] == '_'
        ensures IsDigit(t[i])
      {
        if i < n - 1 {
          assert head[i - 1] == t[i - 1] && head[i] == t[i];
        }
      }
      forall i | 0 <= i < n
        ensures IsDigit(t[i]) || t[i] == '_'
      {
        if i < n - 1 {
          assert head[i] == t[i];
        }
      }
    }
    if IsDigitRun(t) {
      forall i | 0 <= i < |head|
        ensures IsDigit(head[i]) || head[i] == '_'
      {
        assert head[i] == t[i];
      }
      forall i | 0 < i < |head| && head[i - 1] == '_'
        ensures IsDigit(head[i])
      {
        assert head[i - 1] == t[i - 1] && head[i] == t[i];
      }
      assert IsDigit(head[0]) by {
        assert head[0] == t[0];
      }
    }
  }

  lemma WithoutStep(t: string, head: string)
    requires |t| >= 2 && IsDigit(t[|t| - 1])
    requires head == if t[|t| - 2] == '_' then t[..|t| - 2] else t[..|t| - 1]
    requires AllDigits(Without(head, '_'))
    ensures AllDigits(Without(t, '_'))
    ensures DigitsValue(Without(t, '_')) == 10 * DigitsValue(Without(head, '_')) + DigitValue(t[|t| - 1])
  {
    var c := t[|t| - 1];
    WithoutLast(t, head);
    AppendDigit(Without(head, '_'), c);
  }

  lemma WithoutLast(t: string, head: string)
    requires |t| >= 2 && IsDigit(t[|t| - 1])
    requires head == if t[|t| - 2] == '_' then t[..|t| - 2] else t[..|t| - 1]
    ensures Without(t, '_') == Without(head, '_') + [t[|t| - 1]]
  {
    var c := t[|t| - 1];
    if t[|t| - 2] == '_' {
      assert t == head + ['_', c];
      WithoutUnderscoreDigit(head, c);
    } else {
      assert t == head + [c];
    }
  }

  lemma WithoutUnderscoreDigit(head: string, c: char)
    requires c != '_'
    ensures Without(head + ['_', c], '_') == Without(head, '_') + [c]
  {
    var t := head + ['_', c];
    assert t[..|t| - 1] == head + ['_'];
    assert (head + ['_'])[..|head|] == head;
  }

  lemma AppendDigit(w: string, c: char)
    requires AllDigits(w) && IsDigit(c)
    ensures AllDigits(w + [c])
    ensures DigitsValue(w + [c]) == 10 * DigitsValue(w) + DigitValue(c)
  {
    var s := w + [c];
    assert s[..|s| - 1] == w;
  }

  /** A plain digit string is read digit by digit. */
  lemma {:induction false} RunValueDigits(s: string)
    requires AllDigits(s) && s != ""
    ensures RunValue(s) == Some(DigitsValue(s))
    decreases |s|
  {
    if |s| > 1 {
      RunValueDigits(s[..|s| - 1]);
    }
  }

  lemma {:induction false} DigitsValueConcat(a: string, b: string)
    requires AllDigits(a) && AllDigits(b)
    ensures AllDigits(a + b)
    ensures DigitsValue(a + b) == DigitsValue(a) * Pow10(|b|) + DigitsValue(b)
    decreases |b|
  {
    var s := a + b;
    if b == "" {
      assert s == a;
    } else {
      var b' := b[..|b| - 1];
      assert s[..|s| - 1] == a + b';
      assert s[|s| - 1] == b[|b| - 1];
      DigitsValueConcat(a, b');
      var x, p, y, d := DigitsValue(a), Pow10(|b'|), DigitsValue(b'), DigitValue(b[|b| - 1]);
      assert DigitsValue(s) == 10 * (x * p + y) + d;
      assert DigitsValue(b) == 10 * y + d;
      assert Pow10(|b|) == 10 * p;
      ShiftDigit(x, p, y, d);
    }
  }

  lemma ShiftDigit(x: int, p: int, y: int, d: int)
    ensures 10 * (x * p + y) + d == x * (10 * p) + (10 * y + d)
  {
  }

  /** Reading back what `str(n)` wrote gives `n`. */
  lemma {:induction false} DecimalValue(n: nat)
    ensures DigitsValue(Decimal(n)) == n
    decreases n
  {
    if n >= 10 {
      DecimalValue(n / 10);
      var s := Decimal(n);
      assert s[..|s| - 1] == Decimal(n / 10);
    }
  }

  /** `str(n)` has at most `k` digits exactly when `n < 10^k`. */
  lemma {:induction false} DecimalLength(n: nat, k: nat)
    requires k >= 1
    ensures |Decimal(n)| <= k <==> n < Pow10(k)
    decreases n
  {
    if n < 10 {
      PowAtLeastTen(k);
    } else if k == 1 {
      assert Pow10(1) == 10;
    } else {
      DecimalLength(n / 10, k - 1);
      assert n / 10 < Pow10(k - 1) <==> n < 10 * Pow10(k - 1);
    }
  }

  lemma {:induction false} PowAtLeastTen(k: nat)
    requires k >= 1
    ensures Pow10(k) >= 10
  {
    if k > 1 {
      PowAtLeastTen(k - 1);
    }
  }

  lemma DecimalNoSpace(n: nat)
    ensures NoSpace(Decimal(n))
    ensures Lacks(Decimal(n), '_') && Lacks(Decimal(n), ',') && Lacks(Decimal(n), '/') && Lacks(Decimal(n), '-')
  {
  }

  /** An unsigned digit string reads as its value, leading zeros and all,
      unless it has more digits than `int()` converts. */
  lemma PyIntDigits(s: string)
    requires AllDigits(s) && s != ""
    ensures PyInt(s) == if |s| <= MaxStrDigits then Some(DigitsValue(s)) else None
  {
    DigitsBare(s);
    WithoutAbsent(s, '_');
    RunValueDigits(s);
    ReadDigits(s, DigitsValue(s));
  }

  lemma ReadDigits(s: string, n: nat)
    requires s != "" && s[0] != '-' && Unsigned(s) == s
    requires RunValue(s) == Some(n) && Without(s, '_') == s
    ensures ReadNumeral(s) == if |s| <= MaxStrDigits then Some(n) else None
  {
  }

  /** A digit string has no blanks to skip and no sign. */
  lemma DigitsBare(s: string)
    requires AllDigits(s) && s != ""
    ensures IntTrim(s) == s && Unsigned(s) == s && s[0] != '-'
  {
    IntTrimKeeps(s);
  }

  /** A text that neither starts nor ends with a blank `int()` skips is
      read whole. */
  lemma IntTrimKeeps(s: string)
    requires s != "" && !IntBlank(s[0]) && !IntBlank(s[|s| - 1])
    ensures IntTrim(s) == s
  {
    assert IntTrimStart(s) == s;
  }

  /** `int()` reads back what `str()` wrote, for every numeral short enough
      to convert. */
  lemma PyIntDecimal(n: nat)
    requires |Decimal(n)| <= MaxStrDigits
    ensures PyInt(Decimal(n)) == Some(n)
  {
    DecimalNoSpace(n);
    DecimalValue(n);
    PyIntDigits(Decimal(n));
  }

  /** Blanks `int()` skips may surround the numeral. */
  lemma PyIntSkipsBlanks(s: string, c: char)
    requires AllDigits(s) && s != "" && IntBlank(c)
    ensures PyInt([c] + s + [c]) == PyInt(s)
  {
    DigitsBare(s);
    IntTrimAround(s, c);
  }

  lemma IntTrimAround(s: string, c: char)
    requires s != "" && !IntBlank(s[0]) && !IntBlank(s[|s| - 1]) && IntBlank(c)
    ensures IntTrim([c] + s + [c]) == s
  {
    var w := [c] + s + [c];
    assert w[1..] == s + [c];
    assert IntTrimStart(s + [c]) == s + [c];
    assert (s + [c])[..|s|] == s;
    assert IntTrimEnd(s) == s;
  }

  /** A unit separator is blank to `str.strip()` but not to `int()`, so a
      numeral followed by one does not convert. */
  lemma UnitSeparatorRejected(s: string)
    requires AllDigits(s) && s != ""
    ensures IsSpace('\U{1F}') && PyInt(s + "\U{1F}") == None
  {
    var w := s + "\U{1F}";
    UnitSeparatorKept(s);
    assert RunValue(w) == None;
  }

  lemma UnitSeparatorKept(s: string)
    requires AllDigits(s) && s != ""
    ensures var w := s + "\U{1F}";
      IntTrim(w) == w && Unsigned(w) == w
  {
    var w := s + "\U{1F}";
    assert !IntBlank(w[0]) && !IntBlank(w[|w| - 1]);
    IntTrimKeeps(w);
  }

  lemma {:induction false} DecimalSplitThousands(n: nat)
    requires n >= 1000
    ensures Decimal(n) == Decimal(n / 1000) + ThreeDigits(n % 1000)
  {
    var a := n / 10;
    var b := a / 10;
    NestedDiv(n);
    LowDigits(n);
    assert Decimal(n) == Decimal(a) + [DigitChar(n % 10)];
    assert Decimal(a) == Decimal(b) + [DigitChar(a % 10)];
    assert Decimal(b) == Decimal(n / 1000) + [DigitChar(b % 10)];
    assert ThreeDigits(n % 1000) == [DigitChar(b % 10), DigitChar(a % 10), DigitChar(n % 10)];
  }

  lemma NestedDiv(n: nat)
    ensures n / 10 / 10 == n / 100 && n / 10 / 10 / 10 == n / 1000
  {
    var a := n / 10;
    var b := a / 10;
    var c := b / 10;
    DivUnique(n, 10, a, n % 10);
    DivUnique(a, 10, b, a % 10);
    DivUnique(b, 10, c, b % 10);
    DivUnique(n, 100, b, 10 * (a % 10) + n % 10);
    DivUnique(n, 1000, c, 100 * (b % 10) + 10 * (a % 10) + n % 10);
  }

  /** The last three digits of `n` are the digits of `n % 1000`. */
  lemma LowDigits(n: nat)
    ensures n % 1000 / 100 == n / 100 % 10
    ensures n % 1000 / 10 % 10 == n / 10 % 10
    ensures n % 1000 % 10 == n % 10
  {
    var q, r := n / 1000, n % 1000;
    var h, w := r / 100, r % 100;
    var t, u := w / 10, w % 10;
    DivUnique(n, 1000, q, r);
    DivUnique(r, 100, h, w);
    DivUnique(w, 10, t, u);
    DivUnique(n, 100, 10 * q + h, w);
    DivUnique(10 * q + h, 10, q, h);
    DivUnique(n, 10, 100 * q + 10 * h + t, u);
    DivUnique(100 * q + 10 * h + t, 10, 10 * q + h, t);
    DivUnique(r, 10, 10 * h + t, u);
    DivUnique(10 * h + t, 10, h, t);
  }

  /** Division with remainder has exactly one answer. */
  lemma DivUnique(n: int, k: int, q: int, r: int)
    requires k > 0 && 0 <= r < k && n == k * q + r
    ensures n / k == q && n % k == r
  {
    var q' := n / k;
    var d := q' - q;
    assert k * q' + n % k == k * q + r;
    assert k * d == k * q' - k * q;
    MulSign(k, d);
    if d != 0 {
      assert false;
    }
  }

  lemma MulSign(k: int, d: int)
    ensures k > 0 && d >= 1 ==> k * d >= k
    ensures k > 0 && d <= -1 ==> k * d <= -k
  {
    if k > 0 && d >= 1 {
      assert k * d == k + k * (d - 1);
    } else if k > 0 && d <= -1 {
      assert k * d == -k + k * (d + 1);
    }
  }


  /** Removing the thousands separators of `{n:,}` leaves `str(n)`. */
  lemma {:induction false} GroupedWithoutCommas(n: nat)
    ensures Without(Grouped(n), ',') == Decimal(n)
    decreases n
  {
    if n < 1000 {
      WithoutAbsent(Decimal(n), ',');
    } else {
      GroupedWithoutCommas(n / 1000);
      var t := ThreeDigits(n % 1000);
      WithoutConcat(Grouped(n / 1000) + ",", t, ',');
      WithoutConcat(Grouped(n / 1000), ",", ',');
      assert Without(",", ',') == "";
      WithoutAbsent(t, ',');
      DecimalSplitThousands(n);
    }
  }
}

=== FILE: options.dfy ===
/** The optional value used wherever the updater either produces something
    or gives up (Python's `None`, or an exception caught by the caller). */
module Options {

  datatype Option<+T> = None | Some(value: T)
}

=== FILE: prices.dfy ===
/** The price arithmetic of `fetch_latest_price`: the lowest and highest
    price cells lose their thousands separators, are read with `int()`, and
    their floor average becomes the day's price. */
module Prices {

  import opened Options
  import opened Text
  import opened Numerals

  /** `int(text.replace(',', ''))`; `None` where `int()` raises. */
  function PriceValue(text: string): Option<int>
  {
    PyInt(Without(text, ','))
  }

  /** `(min_price + max_price) // 2` over the two price cells. Python's `//`
      floors; Dafny's `/` agrees with it because the divisor is positive. */
  function AveragePrice(minText: string, maxText: string): (r: Option<int>)
    ensures r.Some? <==> PriceValue(minText).Some? && PriceValue(maxText).Some?
    ensures r.Some? ==>
      var lo, hi := PriceValue(minText).value, PriceValue(maxText).value;
      && 2 * r.value <= lo + hi <= 2 * r.value + 1
      && (lo <= hi ==> lo <= r.value <= hi)
  {
    FloorMean(PriceValue(minText), PriceValue(maxText))
  }

  function FloorMean(lo: Option<int>, hi: Option<int>): (r: Option<int>)
    ensures r.Some? <==> lo.Some? && hi.Some?
    ensures r.Some? ==> 2 * r.value <= lo.value + hi.value <= 2 * r.value + 1
  {
    if lo.Some? && hi.Some? then Some((lo.value + hi.value) / 2) else None
  }

  /** A price written with thousands separators, as the page shows it,
      reads back as that price, if it has no more digits than `int()`
      converts. */
  lemma GroupedPriceReads(n: nat)
    requires |Decimal(n)| <= MaxStrDigits
    ensures PriceValue(Grouped(n)) == Some(n)
  {
    GroupedWithoutCommas(n);
    PyIntDecimal(n);
  }

  /** Two prices written as the page writes them average to the floor of
      their mean, which lies between them. */
  lemma AverageOfPagePrices(lo: nat, hi: nat)
    requires lo <= hi && |Decimal(lo)| <= MaxStrDigits && |Decimal(hi)| <= MaxStrDigits
    ensures AveragePrice(Grouped(lo), Grouped(hi)) == Some((lo + hi) / 2)
    ensures lo <= (lo + hi) / 2 <= hi
  {
    GroupedPriceReads(lo);
    GroupedPriceReads(hi);
    AverageReads(Grouped(lo), Grouped(hi), lo, hi);
  }

  /** Once both cells read, the price is exactly the floor of their mean. */
  lemma AverageReads(minText: string, maxText: string, lo: int, hi: int)
    requires PriceValue(minText) == Some(lo) && PriceValue(maxText) == Some(hi)
    ensures AveragePrice(minText, maxText) == Some((lo + hi) / 2)
  {
    FloorMeanOf(PriceValue(minText), PriceValue(maxText), lo, hi);
  }

  lemma FloorMeanOf(a: Option<int>, b: Option<int>, lo: int, hi: int)
    requires a == Some(lo) && b == Some(hi)
    ensures FloorMean(a, b) == Some((lo + hi) / 2)
  {
  }

}

=== FILE: store.dfy ===
/** The CSV history as an append-only sequence of observations. The file's
    header, quoting and encoding are not modelled: a row read back is the
    observation that was written. */
module Store {

  import opened Options

  /** One CSV row: `date_pr` (the Persian date shown by the page, kept
      verbatim), `date_gr` (the normalised Gregorian date), `source` and
      `price_avg`. */
  datatype Observation = Observation(datePr: string, dateGr: string, source: string, priceAvg: int)

  /** `get_last_entry`: the row appended most recently, by position. */
  function LastEntry(store: seq<Observation>): (r: Option<Observation>)
    ensures r.None? <==> store == []
    ensures r.Some? ==> r.value in store
  {
    if store == [] then None else Some(store[|store| - 1])
  }

  /** Appending rows one by one and reading the last row back gives the
      row appended last, whatever the dates say. */
  lemma {:induction false} LastAfterAppends(store: seq<Observation>, rows: seq<Observation>)
    requires rows != []
    ensures LastEntry(store + rows) == Some(rows[|rows| - 1])
  {
    assert (store + rows)[|store + rows| - 1] == rows[|rows| - 1];
  }

  /** No two consecutive rows carry the same Persian date. */
  predicate AdjacentDistinct(store: seq<Observation>)
  {
    forall i :: 0 < i < |store| ==> store[i - 1].datePr != store[i].datePr
  }
}

=== FILE: text.dfy ===
/** The pieces of Python's `str` behaviour that the updater relies on:
    `isspace`, `strip()`, `split()[0]`, `replace` and `re.split` on one
    separator character. Characters are Unicode scalar values. */
module Text {

  /** Python's `str.isspace()`: the ASCII controls TAB..CR and FS..US, the
      blank, NEL, NBSP and the Unicode space separators. */
  predicate IsSpace(c: char)
  {
    || c == ' '
    || ('\t' <= c <= '\r')
    || ('\U{1C}' <= c <= '\U{1F}')
    || c == '\U{85}' || c == '\U{A0}' || c == '\U{1680}'
    || ('\U{2000}' <= c <= '\U{200A}')
    || c == '\U{2028}' || c == '\U{2029}' || c == '\U{202F}'
    || c == '\U{205F}' || c == '\U{3000}'
  }

  /** An ASCII decimal digit; other Unicode digits are outside the model. */
  predicate IsDigit(c: char)
  {
    '0' <= c <= '9'
  }

  predicate NoSpace(s: string)
  {
    forall i :: 0 <= i < |s| ==> !IsSpace(s[i])
  }

  predicate AllSpace(s: string)
  {
    forall i :: 0 <= i < |s| ==> IsSpace(s[i])
  }

  /** Neither end of the text is blank, as after `strip()`. */
  predicate Trimmed(s: string)
  {
    s == "" || (!IsSpace(s[0]) && !IsSpace(s[|s| - 1]))
  }

  predicate Lacks(s: string, c: char)
  {
    forall i :: 0 <= i < |s| ==> s[i] != c
  }

  /** Leading whitespace removed. */
  function TrimStart(s: string): (r: string)
    ensures |r| <= |s| && r == s[|s| - |r|..]
    ensures forall i :: 0 <= i < |s| - |r| ==> IsSpace(s[i])
    ensures r == "" || !IsSpace(r[0])
    decreases |s|
  {
    if |s| > 0 && IsSpace(s[0]) then TrimStart(s[1..]) else s
  }

  /** Trailing whitespace removed. */
  function TrimEnd(s: string): (r: string)
    ensures |r| <= |s| && r == s[..|r|]
    ensures forall i :: |r| <= i < |s| ==> IsSpace(s[i])
    ensures r == "" || !IsSpace(r[|r| - 1])
    decreases |s|
  {
    if |s| > 0 && IsSpace(s[|s| - 1]) then TrimEnd(s[..|s| - 1]) else s
  }

  /** The number of blanks `s` starts with. */
  function LeadingBlanks(s: string): (n: nat)
    ensures n <= |s|
    ensures forall j :: 0 <= j < n ==> IsSpace(s[j])
    ensures n == |s| || !IsSpace(s[n])
  {
    |s| - |TrimStart(s)|
  }

  /** Python's `s.strip()`: empty exactly for a blank text, and with no
      blank at either end (`StripSlice` says which text it is). */
  function Strip(s: string): (r: string)
    ensures r == "" <==> AllSpace(s)
    ensures Trimmed(r)
  {
    StripEnds(s);
    TrimEnd(TrimStart(s))
  }

  lemma StripEnds(s: string)
    ensures var r := TrimEnd(TrimStart(s));
      && (r == "" <==> AllSpace(s))
      && Trimmed(r)
  {
  }

  /** `strip()` removes exactly the leading and the trailing blanks: its
      result is the stretch of `s` that starts after the leading blanks,
      is followed only by blanks, and does not end in one. */
  lemma StripSlice(s: string)
    ensures var i, r := LeadingBlanks(s), Strip(s);
      && i + |r| <= |s|
      && (forall j :: 0 <= j < |r| ==> r[j] == s[i + j])
      && (forall j :: i + |r| <= j < |s| ==> IsSpace(s[j]))
      && Trimmed(r)
  {
    var t := TrimStart(s);
    StripBody(s);
    CutFacts(s, t, TrimEnd(t), LeadingBlanks(s));
  }

  lemma StripBody(s: string)
    ensures Strip(s) == TrimEnd(TrimStart(s))
  {
  }

  /** `r` cut from the front of `t`, which is cut from the back of `s`,
      is a stretch of `s`. */
  lemma CutFacts(s: string, t: string, r: string, i: nat)
    requires i + |t| == |s| && t == s[i..]
    requires |r| <= |t| && r == t[..|r|]
    requires forall j :: |r| <= j < |t| ==> IsSpace(t[j])
    ensures i + |r| <= |s|
    ensures forall j :: 0 <= j < |r| ==> r[j] == s[i + j]
    ensures forall j :: i + |r| <= j < |s| ==> IsSpace(s[j])
  {
    forall j | i + |r| <= j < |s|
      ensures IsSpace(s[j])
    {
      assert s[j] == t[j - i];
    }
  }

  /** `s.split()[0]` for an `s` that does not start with whitespace: the
      longest prefix free of whitespace. */
  function FirstToken(s: string): (r: string)
    ensures |r| <= |s| && r == s[..|r|]
    ensures NoSpace(r)
    ensures |r| == |s| || IsSpace(s[|r|])
    decreases |s|
  {
    if |s| == 0 || IsSpace(s[0]) then "" else [s[0]] + FirstToken(s[1..])
  }

  /** `s.replace(a, b)` for single characters. */
  function ReplaceChar(s: string, a: char, b: char): (r: string)
    ensures |r| == |s|
    ensures forall i :: 0 <= i < |s| ==> r[i] == (if s[i] == a then b else s[i])
  {
    seq(|s|, i requires 0 <= i < |s| => if s[i] == a then b else s[i])
  }

  /** `s.replace(c, '')`. */
  function Without(s: string, c: char): (r: string)
    ensures Lacks(r, c)
    ensures |r| <= |s|
    decreases |s|
  {
    if s == "" then ""
    else if s[|s| - 1] == c then Without(s[..|s| - 1], c)
    else Without(s[..|s| - 1], c) + [s[|s| - 1]]
  }

  /** `re.split(sep, s)` for a one-character separator: the pieces between
      separators, always at least one. */
  function Split(s: string, sep: char): (parts: seq<string>)
    ensures |parts| >= 1
    decreases |s|
  {
    if s == "" then [""]
    else if s[0] == sep then [""] + Split(s[1..], sep)
    else
      var rest := Split(s[1..], sep);
      [[s[0]] + rest[0]] + rest[1..]
  }

  lemma {:induction false} SplitSingle(s: string, sep: char)
    requires Lacks(s, sep)
    ensures Split(s, sep) == [s]
    decreases |s|
  {
    if s != "" {
      SplitSingle(s[1..], sep);
      assert [s[0]] + s[1..] == s;
    }
  }

  lemma {:induction false} SplitFront(a: string, sep: char, rest: string)
    requires Lacks(a, sep)
    ensures Split(a + [sep] + rest, sep) == [a] + Split(rest, sep)
    decreases |a|
  {
    var s := a + [sep] + rest;
    if a == "" {
      assert s[1..] == rest;
    } else {
      assert s[1..] == a[1..] + [sep] + rest;
      SplitFront(a[1..], sep, rest);
      assert [a[0]] + a[1..] == a;
    }
  }

  /** Three separator-free pieces joined by the separator split back into
      exactly those pieces. */
  lemma SplitThree(a: string, b: string, c: string, sep: char)
    requires Lacks(a, sep) && Lacks(b, sep) && Lacks(c, sep)
    ensures Split(a + [sep] + b + [sep] + c, sep) == [a, b, c]
  {
    assert a + [sep] + b + [sep] + c == a + [sep] + (b + [sep] + c);
    SplitFront(a, sep, b + [sep] + c);
    SplitFront(b, sep, c);
    SplitSingle(c, sep);
  }

  lemma {:induction false} WithoutAbsent(s: string, c: char)
    requires Lacks(s, c)
    ensures Without(s, c) == s
    decreases |s|
  {
    if s != "" {
      WithoutAbsent(s[..|s| - 1], c);
    }
  }

  lemma {:induction false} WithoutConcat(a: string, b: string, c: char)
    ensures Without(a + b, c) == Without(a, c) + Without(b, c)
    decreases |b|
  {
    if b == "" {
      assert a + b == a;
    } else {
      var s := a + b;
      assert s[..|s| - 1] == a + b[..|b| - 1];
      WithoutConcat(a, b[..|b| - 1], c);
    }
  }

  /** Stripping a text that already begins and ends with a non-blank is a
      no-op. */
  lemma StripKeeps(s: string)
    requires s != "" && !IsSpace(s[0]) && !IsSpace(s[|s| - 1])
    ensures Strip(s) == s
  {
    assert TrimStart(s) == s;
  }

  lemma StripIdempotent(s: string)
    ensures Strip(Strip(s)) == Strip(s)
  {
    var t := Strip(s);
    if t != "" {
      StripKeeps(t);
    }
  }

  lemma FirstTokenWhole(s: string)
    requires NoSpace(s)
    ensures FirstToken(s) == s
  {
  }

  /** The first token of `tok + [c] + rest`, `c` a blank, is `tok`. */
  lemma {:induction false} FirstTokenStops(tok: string, c: char, rest: string)
    requires NoSpace(tok) && IsSpace(c)
    ensures FirstToken(tok + [c] + rest) == tok
    decreases |tok|
  {
    var s := tok + [c] + rest;
    if tok != "" {
      assert s[1..] == tok[1..] + [c] + rest;
      FirstTokenStops(tok[1..], c, rest);
      assert [tok[0]] + tok[1..] == tok;
    }
  }

  /** Replacing one non-blank character by another commutes with trimming
      and with taking the first token. */
  lemma {:induction false} TrimStartReplace(s: string, a: char, b: char)
    requires !IsSpace(a) && !IsSpace(b)
    ensures TrimStart(ReplaceChar(s, a, b)) == ReplaceChar(TrimStart(s), a, b)
    decreases |s|
  {
    if |s| > 0 && IsSpace(s[0]) {
      assert ReplaceChar(s, a, b)[1..] == ReplaceChar(s[1..], a, b);
      TrimStartReplace(s[1..], a, b);
    }
  }

  lemma {:induction false} TrimEndReplace(s: string, a: char, b: char)
    requires !IsSpace(a) && !IsSpace(b)
    ensures TrimEnd(ReplaceChar(s, a, b)) == ReplaceChar(TrimEnd(s), a, b)
    decreases |s|
  {
    if |s| > 0 && IsSpace(s[|s| - 1]) {
      assert ReplaceChar(s, a, b)[..|s| - 1] == ReplaceChar(s[..|s| - 1], a, b);
      TrimEndReplace(s[..|s| - 1], a, b);
    }
  }

  lemma StripReplace(s: string, a: char, b: char)
    requires !IsSpace(a) && !IsSpace(b)
    ensures Strip(ReplaceChar(s, a, b)) == ReplaceChar(Strip(s), a, b)
  {
    TrimStartReplace(s, a, b);
    TrimEndReplace(TrimStart(s), a, b);
  }

  lemma {:induction false} FirstTokenReplace(s: string, a: char, b: char)
    requires !IsSpace(a) && !IsSpace(b)
    ensures FirstToken(ReplaceChar(s, a, b)) == ReplaceChar(FirstToken(s), a, b)
    decreases |s|
  {
    if |s| > 0 && !IsSpace(s[0]) {
      assert ReplaceChar(s, a, b)[1..] == ReplaceChar(s[1..], a, b);
      FirstTokenReplace(s[1..], a, b);
      assert ReplaceChar(FirstToken(s), a, b) == [ReplaceChar(s, a, b)[0]] + ReplaceChar(FirstToken(s[1..]), a, b);
    }
  }

  lemma ReplaceTwice(s: string, a: char, b: char)
    ensures ReplaceChar(ReplaceChar(s, a, b), a, b) == ReplaceChar(s, a, b)
  {
  }

  lemma ReplaceAbsent(s: string, a: char, b: char)
    requires Lacks(s, a)
    ensures ReplaceChar(s, a, b) == s
  {
  }

  /** Trimming the end of a text keeps at least every character up to its
      last non-blank one. */
  lemma TrimEndKeepsPrefix(s: string, i: int)
    requires 0 <= i < |s| && !IsSpace(s[i])
    ensures |TrimEnd(s)| > i
  {
  }

  lemma ReplaceConcat(x: string, y: string, a: char, b: char)
    ensures ReplaceChar(x + y, a, b) == ReplaceChar(x, a, b) + ReplaceChar(y, a, b)
  {
  }
}

=== FILE: updater.dfy ===
/** `USD2RialsUpdater`: reading one table row into an observation, and
    `run` as a transition of the CSV history. The page fetch and the CSV
    write are inputs: the fetched row (or the failure) and whether the
    append succeeded. */
module Updater {

  import opened Options
  import opened DateNormalizer
  import opened Prices
  import opened Store
  import opened ChangeDetector

  /** The provider tag written into every row. */
  const Source := "tgju"

  /** The page's rows need at least this many cells. */
  const MinCells := 8

  /** The cell texts of the first body row → an observation: cell 1 is the
      lowest price, cell 2 the highest, cell 6 the Gregorian date and cell
      7 the Persian date. `None` is every exception the fetch swallows: too
      few cells, a blank date, a price `int()` rejects. */
  function ParseRow(cells: seq<string>): (r: Option<Observation>)
    ensures r.Some? <==> |cells| >= MinCells && Normalize(cells[6]).Some? && AveragePrice(cells[1], cells[2]).Some?
    ensures r.Some? ==>
      && r.value.datePr == cells[7]
      && r.value.source == Source
      && Some(r.value.dateGr) == Normalize(cells[6])
      && Some(r.value.priceAvg) == AveragePrice(cells[1], cells[2])
  {
    if |cells| < MinCells then None
    else
      match (Normalize(cells[6]), AveragePrice(cells[1], cells[2]))
      case (Some(gregorian), Some(avg)) => Some(Observation(cells[7], gregorian, Source, avg))
      case _ => None
  }

  /** What one run leaves behind: the history, the result `run` returns,
      and the README headline when the README is rewritten. */
  datatype RunResult = RunResult(store: seq<Observation>, ok: bool, readme: Option<Headline>)

  /** `run()`: give up if the fetch failed; otherwise compare with the last
      row, append if new (failing if the append fails), and rewrite the
      README from the fetched row and the row that was last before it. */
  function Run(store: seq<Observation>, fetched: Option<Observation>, appendOk: bool): (r: RunResult)
    ensures !r.ok <==> fetched.None? || (IsNew(fetched.value, LastEntry(store)) && !appendOk)
    ensures r.store != store <==> fetched.Some? && IsNew(fetched.value, LastEntry(store)) && appendOk
    ensures r.store == store || (fetched.Some? && r.store == store + [fetched.value])
    ensures r.readme.Some? <==> r.ok
    ensures r.readme.Some? ==> r.readme.value == ReadmeHeadline(fetched.value, LastEntry(store))
  {
    match fetched
    case None => RunResult(store, false, None)
    case Some(latest) =>
      var last := LastEntry(store);
      if IsNew(latest, last) then
        if appendOk then RunResult(store + [latest], true, Some(ReadmeHeadline(latest, last)))
        else RunResult(store, false, None)
      else RunResult(store, true, Some(ReadmeHeadline(latest, last)))
  }

  /** A run only ever appends, and at most one row. */
  lemma RunAppendsAtMostOne(store: seq<Observation>, fetched: Option<Observation>, appendOk: bool)
    ensures var s := Run(store, fetched, appendOk).store;
      && |store| <= |s| <= |store| + 1
      && s[..|store|] == store
  {
  }

  /** After a successful run the history ends with the fetched Persian
      date: it was either appended now or already last. */
  lemma SuccessfulRunRecordsDate(store: seq<Observation>, obs: Observation, appendOk: bool)
    requires Run(store, Some(obs), appendOk).ok
    ensures var last := LastEntry(Run(store, Some(obs), appendOk).store);
      last.Some? && last.value.datePr == obs.datePr
  {
  }

  /** Re-running after a successful run with the same fetched row appends
      nothing and still succeeds, whatever the append would do. */
  lemma RerunIsIdempotent(store: seq<Observation>, obs: Observation, appendOk: bool, appendOk2: bool)
    requires Run(store, Some(obs), appendOk).ok
    ensures var s := Run(store, Some(obs), appendOk).store;
      && Run(s, Some(obs), appendOk2).store == s
      && Run(s, Some(obs), appendOk2).ok
  {
    SuccessfulRunRecordsDate(store, obs, appendOk);
  }

  /** A run never puts two rows with the same Persian date next to each
      other. */
  lemma RunKeepsAdjacentDistinct(store: seq<Observation>, fetched: Option<Observation>, appendOk: bool)
    requires AdjacentDistinct(store)
    ensures AdjacentDistinct(Run(store, fetched, appendOk).store)
  {
    var s := Run(store, fetched, appendOk).store;
    if s != store {
      forall i | 0 < i < |s|
        ensures s[i - 1].datePr != s[i].datePr
      {
        if i < |store| {
          assert s[i - 1] == store[i - 1] && s[i] == store[i];
        }
      }
    }
  }

  /** Only the last row is compared, so a Persian date seen earlier in the
      history is appended again when another date lies in between. */
  lemma EarlierDateAppendedAgain(a: Observation, b: Observation, obs: Observation)
    requires obs.datePr == a.datePr && a.datePr != b.datePr
    ensures Run([a, b], Some(obs), true).store == [a, b, obs]
  {
  }

  /** One scheduled invocation: the fetch outcome and whether the CSV
      append would succeed. */
  datatype Attempt = Attempt(fetched: Option<Observation>, appendOk: bool)

  /** The history after a sequence of runs. */
  function RunAll(store: seq<Observation>, attempts: seq<Attempt>): seq<Observation>
    decreases |attempts|
  {
    if attempts == [] then store
    else RunAll(Run(store, attempts[0].fetched, attempts[0].appendOk).store, attempts[1..])
  }

  /** Over any sequence of runs the history only grows, by at most one row
      per run, every added row is one that was fetched, and no two adjacent
      rows share a Persian date. */
  lemma {:induction false} RunAllInvariants(store: seq<Observation>, attempts: seq<Attempt>)
    requires AdjacentDistinct(store)
    ensures var s := RunAll(store, attempts);
      && AdjacentDistinct(s)
      && |store| <= |s| <= |store| + |attempts|
      && s[..|store|] == store
      && forall i :: |store| <= i < |s| ==> exists k :: 0 <= k < |attempts| && attempts[k].fetched == Some(s[i])
    decreases |attempts|
  {
    if attempts != [] {
      var a := attempts[0];
      var s1 := Run(store, a.fetched, a.appendOk).store;
      RunAppendsAtMostOne(store, a.fetched, a.appendOk);
      RunKeepsAdjacentDistinct(store, a.fetched, a.appendOk);
      RunAllInvariants(s1, attempts[1..]);
      var s := RunAll(store, attempts);
      assert s == RunAll(s1, attempts[1..]);
      assert s[..|s1|] == s1;
      assert s[..|store|] == s1[..|store|];
      forall i | |store| <= i < |s|
        ensures exists k :: 0 <= k < |attempts| && attempts[k].fetched == Some(s[i])
      {
        if i < |s1| {
          assert s1 != store;
          assert s[i] == s1[i];
          assert attempts[0].fetched == Some(s[i]);
        } else {
          var k :| 0 <= k < |attempts[1..]| && attempts[1..][k].fetched == Some(s[i]);
          assert attempts[k + 1].fetched == Some(s[i]);
        }
      }
    }
  }

  /** On an empty history a fetched row is always new: it becomes the only
      row, the run succeeds, and the README shows the row's date and price
      with no direction mark and no change line. */
  lemma FirstRun(obs: Observation)
    ensures Run([], Some(obs), true) == RunResult([obs], true, Some(Headline(obs.datePr, obs.priceAvg, NoArrow, None)))
  {
    ChangeLineRule(obs, None);
  }
}

=== FILE: updater_examples.dfy ===
/** A page row run through the updater end to end. */
module UpdaterExamples {

  import opened Options
  import opened Numerals
  import opened Prices
  import opened Store
  import opened ChangeDetector
  import opened Updater
  import opened NormalizerExamples

  /** The first run on an empty history: the page shows the Persian date
      1403/07/01, the Gregorian date 2024-09-22 and the day's lowest and
      highest prices with thousands separators. The history gains one row
      with the normalised date and the average price, the run succeeds, and
      with no previous row the README shows no direction mark and no change
      line. */
  lemma FirstRunExample(cells: seq<string>, lo: nat, hi: nat)
    requires |cells| == 8 && lo <= hi
    requires |Decimal(lo)| <= MaxStrDigits && |Decimal(hi)| <= MaxStrDigits
    requires cells[1] == Grouped(lo) && cells[2] == Grouped(hi)
    requires cells[6] == "2024-09-22" && cells[7] == "1403/07/01"
    ensures var obs := Observation("1403/07/01", "9/22/2024", "tgju", (lo + hi) / 2);
      && ParseRow(cells) == Some(obs)
      && Run([], ParseRow(cells), true) == RunResult([obs], true, Some(Headline("1403/07/01", (lo + hi) / 2, NoArrow, None)))
  {
    PageRowParses(cells, lo, hi);
    FirstRun(Observation("1403/07/01", "9/22/2024", "tgju", (lo + hi) / 2));
  }

  lemma PageRowParses(cells: seq<string>, lo: nat, hi: nat)
    requires |cells| == 8 && lo <= hi
    requires |Decimal(lo)| <= MaxStrDigits && |Decimal(hi)| <= MaxStrDigits
    requires cells[1] == Grouped(lo) && cells[2] == Grouped(hi)
    requires cells[6] == "2024-09-22" && cells[7] == "1403/07/01"
    ensures ParseRow(cells) == Some(Observation("1403/07/01", "9/22/2024", "tgju", (lo + hi) / 2))
  {
    assert cells[6] == Joined("2024", "09", "22", '-');
    PageDate('-');
    AverageOfPagePrices(lo, hi);
  }
}
